=== FILE: README.md ===
# Vehicle listing scrapers: the acquisition and extraction core in Dafny

The system collects car listings from two Iranian classifieds sites,
bama.ir and divar.ir, by driving a browser. It scrolls the listing until
its lazy-loaded content is revealed and turns each ad card into a record
(model, year, mileage, description, price, price status, URL, date). It
then writes each day's batch to a CSV file, de-duplicated and sorted, with
a backup copy. This project models the deterministic rules around the
browser and proves properties of them:

- `save_to_csv` (`Persistence`):
  - de-duplicates on the five-column key, keeping the first occurrence;
  - sorts by model;
  - builds the primary and backup paths;
  - returns nothing for an empty batch;
  - raises pandas' KeyError when a key column is absent from every record.
- The `retry` decorator (`Retrying`): a bounded attempt loop with linear
  backoff that re-raises the last failure.
- `launch_browser_with_fallback` (`Session`): the case-insensitive anti-bot
  check and the engine fallback loop. Ghost sets track which page, context
  and browser handles were created and which were released.
- The bama.ir scraper (`Bama`): the scroll-stability loop, `clean_price`,
  the card-to-record mapping with its price rule and retention rule, the
  card loop, the control flow of `scrape()` and its three-attempt retry.
- The divar.ir scraper (`Divar`): the fixed 15-round scroll, the in-page
  JavaScript filter and map, record assembly, the control flow of
  `scrape()` and its single-attempt retry.

The browser is replaced by its observable answers, passed in as data:

- the page height after each scroll;
- each engine's outcome, and which of its `close()` calls raise;
- the fields of each card;
- whether the listing page or the final `browser.close()` raises.

The current date is a parameter. There are two of them, because the
scraper's `today` and the day `save_to_csv` reads from its own clock are
separate reads. Delays are integer milliseconds.

`Outcome` describes how a `scrape()` run ends. The report holds the
records collected and what `save_to_csv` did with them. Independently of
the report, an exception may escape. Each scraper's `except Exception`
swallows everything raised inside its main `try`, including
`save_to_csv`'s KeyError. So the retry wrapper sees only:

- a close that raised during the engine fallback;
- divar.ir's launch steps, which run before its `try`;
- the `browser.close()` in the `finally`.

Points where the code's behaviour is easy to misread:

- A `close()` that raises while the fallback is cleaning up a failed engine
  is not ignored. The exception leaves `launch_browser_with_fallback`
  (utils/helpers.py:184-188), and the handles after it stay open.
- When no engine succeeds, bama.ir's `scrape()` logs and returns normally
  (scrapers/bama_scraper.py:93-95). The retry wrapper therefore never
  retries a failed acquisition (`Bama.RunBama`).
- divar.ir has no non-empty-model filter: a blank title gives a record
  whose model is "" (`Divar.BlankTitleKept`).
- The file's date comes from `save_to_csv`'s own `datetime.now()`
  (utils/helpers.py:75), not from the scraper's `today`.

## Model

| member | source | states |
|---|---|---|
| Text.Strip | scrapers/bama_scraper.py:111 | `str.strip()` / JavaScript `trim()`: the result is an infix of the input, only white space was cut from each end, and it neither starts nor ends with white space |
| Text.StripBlank | scrapers/divar_scraper.py:77 | a text made only of white space strips to the empty string |
| Text.KeepCounts | scrapers/bama_scraper.py:80 | `filter` keeps each accepted character exactly as many times as the input has it, and no other character |
| Text.KeepInOrder | scrapers/bama_scraper.py:80 | the kept characters appear in the input's order (a subsequence of it) |
| Text.KeepIdempotent | scrapers/bama_scraper.py:80 | filtering twice gives the same text as filtering once |
| Text.KeepAppend | scrapers/bama_scraper.py:80 | the filter of a concatenation is the concatenation of the filters |
| Text.KeepPieces | scrapers/bama_scraper.py:80 | the filter of three consecutive pieces is the concatenation of their filters |
| Text.KeepStrip | scrapers/divar_scraper.py:79-80 | stripping white space before a digit filter changes nothing, since no white-space character is a digit |
| Text.Lower | utils/helpers.py:174-176 | `lower()` keeps the length and lower-cases each character |
| Text.LowerIdempotent | utils/helpers.py:176 | lower-casing twice is lower-casing once |
| Text.LowerMissesUppercase | utils/helpers.py:176-178 | a marker containing an ASCII capital letter never occurs in a lower-cased text |
| Text.StrLeTotal | utils/helpers.py:74 | Python's string order is total |
| Text.StrLeTransitive | utils/helpers.py:74 | Python's string order is transitive |
| Persistence.DropDuplicates | utils/helpers.py:74 | `drop_duplicates(subset=...)` never yields more rows than it is given |
| Persistence.DedupMembers | utils/helpers.py:74 | every surviving row is a row of the batch |
| Persistence.DedupCovers | utils/helpers.py:74 | every key (model, year, mileage, price, source_url) of the batch has a surviving row |
| Persistence.DedupDistinct | utils/helpers.py:74 | no two surviving rows share the key |
| Persistence.FirstOccurrenceKept | utils/helpers.py:74 | the first row of the batch with a given key survives |
| Persistence.SurvivorIsFirst | utils/helpers.py:74 | a surviving row is the first row of the batch with its key |
| Persistence.DistinctUnchanged | utils/helpers.py:74 | a batch whose keys are already distinct is left as it is |
| Persistence.DropDuplicatesIdempotent | utils/helpers.py:74 | de-duplicating twice is de-duplicating once |
| Persistence.SameKeyCollapses | utils/helpers.py:74 | two records equal on the five key columns collapse to the first, however their description, price_status or scrape_date differ |
| Persistence.ModelLeTotal | utils/helpers.py:74 | the `model` order, with a missing model (NaN) last, is total |
| Persistence.ModelLeTransitive | utils/helpers.py:74 | the `model` order is transitive |
| Persistence.PrependSorted | utils/helpers.py:74 | a row whose model is no greater than any row of a sorted batch can be put in front and the batch stays sorted |
| Persistence.SortByModel | utils/helpers.py:74 | `sort_values("model")` yields rows in non-decreasing model order that are a permutation of its input |
| Persistence.SortSortedUnchanged | utils/helpers.py:74 | an already sorted batch is left as it is |
| Persistence.PrimaryPath | utils/helpers.py:75-77 | the primary file is named `prefix_DATE.csv` and sits directly in the output directory, joined by exactly one `/` (no directory part when the directory is `""` or `.`) |
| Persistence.BackupPath | utils/helpers.py:87-89 | the backup file is `backups/prefix_DATE_backup.csv` |
| Persistence.DaysGetOwnFiles | utils/helpers.py:75-89 | two different dates written in the same format name different primary files and different backups, so a save only replaces its own day's files |
| Persistence.SaveToCsv | utils/helpers.py:68-93 | an empty batch returns None and writes nothing; a batch in which some key column is absent from every record raises KeyError; otherwise the written rows have distinct keys, are sorted by model, are a permutation of the first occurrences of every key, the returned path is `output_dir/prefix_DATE.csv`, and the backup `backups/prefix_DATE_backup.csv` receives the same rows exactly when backups are enabled |
| Persistence.ResaveIsFixpoint | utils/helpers.py:68-93 | saving the rows a save wrote, under the same prefix and day, writes the same rows to the same paths |
| Persistence.SaveDeduplicatedFirst | utils/helpers.py:68-93 | saving a batch and saving its de-duplicated batch give the same result |
| Persistence.SameMissingColumns | utils/helpers.py:74 | two batches with the same keys, one drawn from the other, lack the same key columns |
| Persistence.SaveSingle | utils/helpers.py:68-93 | a single record carrying the key columns is written as one row to the primary path and to the backup |
| Persistence.PeugeotHasKeyColumns | utils/helpers.py:74 | the worked Peugeot 206 listing carries every key column |
| Persistence.PeugeotExample | utils/helpers.py:68-93 | the worked listing saved under prefix "bama" on 2025-11-10 gives one row in the primary and backup files |
| Persistence.ExamplePrimaryPath | utils/helpers.py:76-77 | the primary file of that example is `output/bama_2025-11-10.csv` |
| Persistence.ExampleBackupPath | utils/helpers.py:89 | its backup is `backups/bama_2025-11-10_backup.csv` |
| Retrying.Backoff | utils/helpers.py:116-117 | the wait after failed attempt k is `delay * k` |
| Retrying.BackoffIncreasing | utils/helpers.py:116-117 | with a positive delay the waits strictly increase |
| Retrying.Retry | utils/helpers.py:104-119 | at most `max_attempts` calls, and at least one when one is allowed; every call before the last raised; the first success is returned with no further call; otherwise all attempts were made and the last exception is re-raised; a wait after each failed attempt but the last; with fewer than one attempt allowed, `raise None` (a TypeError) |
| Retrying.TwoFailuresThenSuccess | utils/helpers.py:104-119 | two failures and then a success under three attempts: three calls, the success returned, waits `delay` and `2 * delay` |
| Session.TitleBlocked | utils/helpers.py:176-177 | the title blocks exactly when it contains, after lower-casing, the lower-cased Cloudflare title or one of the phrases as written |
| Session.BodyBlocked | utils/helpers.py:174-179 | a page without body text is blocked only by an empty phrase |
| Session.IsBlocked | utils/helpers.py:176-179 | a page passes exactly when its lower-cased title contains neither the Cloudflare marker nor a phrase, and its lower-cased body contains no phrase |
| Session.TitleCheckIgnoresCase | utils/helpers.py:176 | the title check gives the same verdict for a title and its lower-cased form |
| Session.CapitalisedPhraseIgnored | utils/helpers.py:176-178 | the phrases are not lower-cased, so adding a phrase with an ASCII capital letter changes no verdict |
| Session.CloudflareOnlyInTitle | utils/helpers.py:176-179 | "Cloudflare" in the title blocks, while "Cloudflare" in the body alone does not |
| Session.FirstFailingClose | utils/helpers.py:184-188 | the close that escapes is the first raising one of page, context, browser among the handles that were created |
| Session.Acquire | utils/helpers.py:124-191 | a session comes from an engine whose page passed, after every engine before it failed cleanly; an escaping close is the first raising close of an engine that failed; `(None, None)` is returned only after every engine failed cleanly |
| Session.ReadyFrom | utils/helpers.py:131-191 | from engine i on, the session comes from engine e exactly when e is the first engine whose page navigates and passes the anti-bot checks, and every engine between i and e failed with clean closes |
| Session.EscapedFrom | utils/helpers.py:131-191 | from engine i on, a close error of kind k escapes from engine e exactly when every engine between i and e failed cleanly, e failed, and k is the first raising close of e's cleanup |
| Session.NoSessionFrom | utils/helpers.py:131-191 | from engine i on, `(None, None)` is returned exactly when every remaining engine failed with clean closes |
| Session.AcquireMeaning | utils/helpers.py:131-191 | over the whole engine list: a session from e exactly when e is the first passing engine and all before it failed cleanly; a close error escapes from e exactly when e is the first engine whose cleanup raised; no session exactly when every engine failed cleanly |
| Session.FallbackAfterBlockedBody | utils/helpers.py:131-191 | with engines [X, Y], where X's body carries an anti-bot phrase and Y's page passes, the session comes from Y and nothing is raised |
| Session.TryEngine | utils/helpers.py:132-188 | one engine: its verdict (passed, failed with clean closes, or a close error escapes); the handles it created are those of the stages reached; a passing engine closes nothing, a clean failure closes all it created, and an escaping close leaves it and the handles after it open |
| Session.TriedMembers | utils/helpers.py:131-161 | a handle was created by the first n engines exactly when its engine is among them and got as far as creating that browser, context or page |
| Session.AcquireSession | utils/helpers.py:124-191 | the loop's result is the fallback rule above; the handles created are exactly those of the engines tried, up to the chosen or failing engine; on success exactly the chosen engine's page, context and browser stay open; with no session every created handle was closed; an escaping close leaves it and the handles after it open |
| Bama.StableRunSettles | scrapers/bama_scraper.py:67-73 | `stable_rounds` reaches 3 exactly when the last three scrolls left the height unchanged |
| Bama.ScrollAndLoad | scrapers/bama_scraper.py:54-74 | between 1 and 50 rounds; it stops at the first round after which three scrolls in a row changed nothing, or after 50 rounds; it waits 2500 ms per round |
| Bama.CleanPrice | scrapers/bama_scraper.py:79-80 | the result is only digits; a missing text gives "" |
| Bama.CleanPriceKeepsDigits | scrapers/bama_scraper.py:79-80 | every digit of the text (Persian digits included) is kept, as often and in the order it occurs, and nothing else |
| Bama.CleanPriceIdempotent | scrapers/bama_scraper.py:79-80 | cleaning twice is cleaning once |
| Bama.CleanPriceIgnoresPadding | scrapers/bama_scraper.py:79-80 | white space around a price never changes its digits |
| Bama.CleanPriceWithoutDigits | scrapers/bama_scraper.py:79-80 | a text without digits cleans to "" |
| Bama.AbsoluteUrl | scrapers/bama_scraper.py:112-114 | a missing or empty href gives ""; an href starting with "http" is kept; any other href becomes `https://bama.ir` followed by the href |
| Bama.AbsoluteUrlIdempotent | scrapers/bama_scraper.py:112-114 | completing a completed URL changes nothing |
| Bama.PriceOf | scrapers/bama_scraper.py:125-140 | a price element wins and gives its cleaned digits, "fixed"; otherwise a negotiable element gives its digits or the sentinel, "negotiable"; with neither the card is skipped |
| Bama.BamaRecord | scrapers/bama_scraper.py:143-152 | the appended dict has exactly the eight columns, each holding its own field |
| Bama.CardRecord | scrapers/bama_scraper.py:106-159 | a card gives a record exactly when it was readable, has a link with a non-blank title, and either has a price element with a digit or has no price element and a negotiable element; the record carries all eight keys, the stripped fields, the absolute URL, the scrape date, and the price and status the price rule gives |
| Bama.Harvest | scrapers/bama_scraper.py:106-159 | no more records than cards |
| Bama.HarvestValid | scrapers/bama_scraper.py:142-152 | every record has the eight keys, a non-empty model and price, a status "fixed" or "negotiable", a digits-only fixed price, and today's date |
| Bama.HarvestAppend | scrapers/bama_scraper.py:106-159 | cards are handled one at a time, in order: the records of a concatenation are the concatenation of the records |
| Bama.HarvestOne | scrapers/bama_scraper.py:106-159 | one card gives its own record or none |
| Bama.UnreadableSkipped | scrapers/bama_scraper.py:157-159 | a card whose reading raised is skipped, and the cards after it are still harvested |
| Bama.ExtractCards | scrapers/bama_scraper.py:106-159 | the card loop appends exactly the harvested records, in card order |
| Bama.BamaBatchSaved | scrapers/bama_scraper.py:161-162 | a non-empty bama.ir batch always carries the key columns, so `save_to_csv` writes it |
| Bama.ListingReport | scrapers/bama_scraper.py:97-166 | the collected records are those the cards give, in card order, and every one is valid; a listing page that raised leaves nothing collected or saved; `save_to_csv` is called exactly when some record was collected, and then saves exactly the collected batch as `save_to_csv` does, to `output/bama_DATE.csv` |
| Bama.BamaScrape | scrapers/bama_scraper.py:86-171 | an exception escapes exactly when a fallback close raised, or a session was acquired and the final `browser.close()` raised; a fallback close error ends the run with nothing done; with no session the run returns having done nothing; with a session the report is that of the `try` block and what escapes is exactly the final `browser.close()`'s error, if it raised; every collected record is valid; a save that happens succeeds |
| Bama.ScrapeBama | scrapers/bama_scraper.py:86-171 | the coroutine composed step by step from the fallback loop, the scroll loop and the card loop ends exactly as `Bama.BamaScrape` says |
| Bama.RunBama | scrapers/bama_scraper.py:85-95 | at most three calls, waits of 3000 and then 6000 ms; every call before the last raised; the first normal return is the result; a failed acquisition returns normally on the first call and is never retried |
| Divar.ScrollFeed | scrapers/divar_scraper.py:64-68 | exactly 15 scrolls of 1400 pixels whatever the card counts, each count read once |
| Divar.ScriptPrice | scrapers/divar_scraper.py:79-80 | the price is the sentinel exactly when the text has no ASCII digit, and otherwise it is exactly the ASCII digits of the text, in order |
| Divar.ItemOf | scrapers/divar_scraper.py:74-81 | a card gives an item exactly when it has a title and at least two descriptions; model and mileage are the trimmed title and first description; the price comes from the second description |
| Divar.ExtractItems | scrapers/divar_scraper.py:71-83 | no more items than cards |
| Divar.ExtractItemsAppend | scrapers/divar_scraper.py:71-83 | the map and filter handle the cards one at a time, in order |
| Divar.ExtractedPrices | scrapers/divar_scraper.py:80 | every extracted price is the sentinel or a non-empty string of ASCII digits |
| Divar.BlankTitleKept | scrapers/divar_scraper.py:76-77 | a card with a blank title still gives an item, with model "" |
| Divar.PersianDigitsPriceIsNegotiable | scrapers/divar_scraper.py:80 | a price written in Persian digits becomes the sentinel, since `\d` matches ASCII only |
| Divar.DivarRecordAsWritten | scrapers/divar_scraper.py:88-94 | the appended record has exactly the keys model, mileage, price, source_url and scrape_date, with the feed URL and today's date |
| Divar.DivarRecord | scrapers/divar_scraper.py:88-94 | the corrected record also has an empty `year`, so it carries every key column |
| Divar.AssembleRecords | scrapers/divar_scraper.py:87-94 | one record per item, in item order |
| Divar.BatchAsWritten | scrapers/divar_scraper.py:87-94 | as written: record i is item i's five-key record dated today, none of them with a `year` |
| Divar.FeedReportAsWritten | scrapers/divar_scraper.py:54-103 | as written: the collected records are the as-written batch; `save_to_csv` is called exactly when the batch is non-empty, and then raises KeyError for `year`, which the `except` records instead of re-raising |
| Divar.DivarScrapeAsWritten | scrapers/divar_scraper.py:25-105 | as written: an exception escapes exactly when a launch step or the final `browser.close()` raised, and it is that step's own error; any save attempted raised KeyError for `year` |
| Divar.AsWrittenSaveRaises | utils/helpers.py:73-74 | as written, every non-empty divar.ir batch makes `save_to_csv` raise KeyError for `year` |
| Divar.AsWrittenNeverWrites | scrapers/divar_scraper.py:96-103 | as written, a divar.ir run never writes a CSV file |
| Divar.AsWrittenKeyErrorCaught | scrapers/divar_scraper.py:96-105 | as written, a run that extracts any item ends with `save_to_csv` having raised KeyError for `year`, and the same exception, if any, escapes as in the corrected run: the KeyError is caught and logged, never re-raised |
| Divar.CorrectedSaveSucceeds | scrapers/divar_scraper.py:96-97 | with the `year` column a non-empty batch is saved to `output/divar_DATE.csv` |
| Divar.FeedReport | scrapers/divar_scraper.py:54-101 | corrected: the collected records are one per extracted item, in order, each with an empty `year`; `save_to_csv` is called exactly when some record was collected, and then saves exactly the collected batch as `save_to_csv` does, to `output/divar_DATE.csv` |
| Divar.DivarScrape | scrapers/divar_scraper.py:25-105 | corrected: an exception escapes exactly when a launch step raised or the final `browser.close()` raised; a launch failure ends the run with nothing done; otherwise the report is the corrected `try` block's, and what escapes is exactly the final `browser.close()`'s error, if it raised |
| Divar.ScrapeDivar | scrapers/divar_scraper.py:25-105 | the coroutine composed step by step from the scroll loop, the extraction and the record loop ends exactly as `Divar.DivarScrape` says |
| Divar.RunDivar | scrapers/divar_scraper.py:24-25 | corrected: one call of the corrected run and no wait; the run's exception, if any, is re-raised, otherwise its report is the result |

## Left out

- The Playwright calls themselves: launching, contexts, `goto`,
  `wait_for_selector`, the queries and `evaluate`. Their answers are
  inputs. The stealth init scripts have no checkable behaviour.
- The asyncio event loop and real sleeps, including the random
  human-like pauses (utils/helpers.py:170, scrapers/divar_scraper.py:21-22).
  The scroll and retry delays are recorded as integer milliseconds.
- Floating point: `delay` seconds, `SCROLL_WAIT_TIME` and the elapsed-time
  prints.
- pandas internals, CSV serialisation, the UTF-8 byte-order mark and
  directory creation. Only the row sequence and the path strings are
  modelled.
- Errors from writing files (an unwritable directory). They would
  propagate like the KeyError and be caught in the same way.
- Logging, the progress message every 50 cards, and the printed banners.
  This includes the banner's `output/<site>_<today>.csv`, which uses the
  scraper's `today` rather than the file's date.
- `install_playwright`, the interactive menu (cli_menu.py), the scheduler
  (scheduler.py) and the sequential runner (run_all.py). They are
  subprocess, UI and cron glue.
- Path normalisation by `pathlib`. The primary path is `output_dir` and
  the file name joined with one "/".
- Persistence.SortByModel: pandas' default sort is not stable, so the model
  sorts by insertion and proves only non-decreasing order and permutation,
  not the order pandas picks among records with equal models.
- Persistence.SortSortedUnchanged: holds for the model's stable
  insertion sort only. pandas' default `sort_values` is not stable and may
  reorder equal-model rows of a batch that is already sorted.
- Persistence.ResaveIsFixpoint: the exact row order it states among rows
  with the same model comes from the model's stable sort. For pandas, only
  the paths, the rows as a multiset and their model order are promised.
- Text.Lower: lower-cases ASCII letters only. Python's full Unicode
  `lower()` is not modelled.
- Bama.CleanPrice: Python's `str.isdigit` is modelled as the ASCII,
  Arabic-Indic and Extended Arabic-Indic digits. Other Unicode digit
  characters are not modelled.
- The ghost handle sets track the engine fallback's handles only. The
  browser that bama.ir's and divar.ir's own `finally` close, and the
  handles divar.ir leaves open when a launch step raises, are not tracked.
- Divar.FeedReport: models the corrected program, whose batch carries an
  empty `year` and is written. As written, no file is written; that run
  is `Divar.FeedReportAsWritten`.
- Divar.DivarScrape: models the corrected program in the same way; the
  as-written run is `Divar.DivarScrapeAsWritten`.
- Divar.AssembleRecords: appends the corrected record, with an empty
  `year`, rather than the five-key dict of scrapers/divar_scraper.py:88-94
  (see Findings). `Divar.BatchAsWritten` is the as-written batch.
- Divar.ScrapeDivar: saves the corrected batch, so its report is that of
  the fixed program. The as-written run is `Divar.DivarScrapeAsWritten`;
  `Divar.AsWrittenSaveRaises`, `Divar.AsWrittenKeyErrorCaught` and
  `Divar.AsWrittenNeverWrites` state what it does.
- Divar.RunDivar: retries the corrected run, `Divar.DivarScrape`. Its
  escapes are those of the as-written run, as `Divar.AsWrittenKeyErrorCaught`
  proves; only its report's save differs.
- Exceptions outside Python's `Exception` hierarchy, such as
  `asyncio.CancelledError` and `KeyboardInterrupt`. They pass through the
  `except Exception` of `retry` (utils/helpers.py:111), of the engine
  fallback (utils/helpers.py:184, leaving that engine's handles open) and
  of both scrapers. Only `Exception` subclasses are modelled.

## Findings

| source | as written | input that shows it | evidently intended | confidence | as-written member | corrected member |
|---|---|---|---|---|---|---|
| scrapers/divar_scraper.py:88-94 | divar.ir records carry no `year` key. `save_to_csv` de-duplicates on a subset that includes `year`, so pandas raises KeyError (utils/helpers.py:74). The scraper's `except` logs the error, and no divar.ir file is ever written | any non-empty feed, e.g. one card with a title and two descriptions | each day's divar.ir listings are saved to `output/divar_DATE.csv` like bama.ir's, with `year` empty | not executed | Divar.AsWrittenSaveRaises | Divar.CorrectedSaveSucceeds |

=== FILE: bama.dfy ===
/**
 * The bama.ir scraper: acquire a browser session through the engine
 * fallback, scroll the listing until its height settles, turn every ad
 * card into a record (keeping only ads with a model and a price or a
 * negotiable tag), save the batch, and close the browser; the whole run
 * is retried up to three times.
 *
 * The browser is replaced by its observable answers: the page height
 * after each scroll, the content of each card, which engine calls raise.
 */
module Bama {
  import opened Wrappers
  import opened Text
  import opened Records
  import opened Persistence
  import opened Session
  import opened Outcome
  import opened Retrying

  const BamaUrl: string := "https://bama.ir/car"
  const Origin: string := "https://bama.ir"
  const MaxRounds: nat := 50
  /** `SCROLL_WAIT_TIME` of 2.5 seconds, as the milliseconds passed to `wait_for_timeout`. */
  const ScrollWaitMs: nat := 2500
  const MaxAttempts: nat := 3
  /** The retry decorator's `delay=3.0`, in milliseconds. */
  const RetryDelayMs: nat := 3000

  // ---------------------------------------------------------------------
  // scroll_and_load
  // ---------------------------------------------------------------------

  /** The page height read after scroll `k`; before the first scroll the loop starts from 0. */
  function HeightAfter(height: nat -> int, k: nat): int {
    if k == 0 then 0 else height(k)
  }

  /** Scroll `k` left the height where scroll `k - 1` had it. */
  predicate Unchanged(height: nat -> int, k: nat) {
    1 <= k && HeightAfter(height, k) == HeightAfter(height, k - 1)
  }

  /** The three scrolls up to `k` brought no new content. */
  predicate SettledAt(height: nat -> int, k: nat) {
    k >= 3 && Unchanged(height, k) && Unchanged(height, k - 1) && Unchanged(height, k - 2)
  }

  /** The loop's `stable_rounds` after scroll `k`: how many scrolls in a row ending at `k` changed nothing. */
  function StableRun(height: nat -> int, k: nat): nat {
    if k == 0 || !Unchanged(height, k) then 0 else StableRun(height, k - 1) + 1
  }

  /** The counter reaches three exactly when the last three scrolls changed nothing. */
  lemma {:induction false} StableRunSettles(height: nat -> int, k: nat)
    ensures StableRun(height, k) >= 3 <==> SettledAt(height, k)
  {
    if StableRun(height, k) >= 3 {
      assert StableRun(height, k - 1) >= 2;
      assert StableRun(height, k - 2) >= 1;
    }
    if SettledAt(height, k) {
      assert StableRun(height, k - 2) >= 1;
      assert StableRun(height, k - 1) >= 2;
    }
  }

  /**
   * Scrolls to the bottom, waits, reads the height; stops after the third
   * scroll in a row that left the height unchanged, or after 50 scrolls.
   */
  method ScrollAndLoad(height: nat -> int) returns (rounds: nat, settled: bool, waitedMs: nat)
    ensures 1 <= rounds <= MaxRounds
    // it stops at the first settled scroll ...
    ensures settled <==> SettledAt(height, rounds)
    ensures forall k :: 1 <= k < rounds ==> !SettledAt(height, k)
    // ... and otherwise runs out of rounds
    ensures !settled ==> rounds == MaxRounds
    ensures waitedMs == rounds * ScrollWaitMs
  {
    var prevHeight := 0;
    var stableRounds := 0;
    rounds, settled, waitedMs := 0, false, 0;
    var roundNum := 1;
    while roundNum <= MaxRounds
      invariant 1 <= roundNum <= MaxRounds + 1
      invariant rounds == roundNum - 1 && !settled
      invariant waitedMs == rounds * ScrollWaitMs
      invariant prevHeight == HeightAfter(height, rounds)
      invariant stableRounds == StableRun(height, rounds) < 3
      invariant forall k :: 1 <= k <= rounds ==> !SettledAt(height, k)
    {
      rounds, waitedMs := roundNum, waitedMs + ScrollWaitMs;
      var curHeight := height(roundNum);
      if curHeight == prevHeight {
        stableRounds := stableRounds + 1;
        if stableRounds >= 3 {
          StableRunSettles(height, rounds);
          settled := true;
          break;
        }
      } else {
        stableRounds := 0;
      }
      StableRunSettles(height, rounds);
      prevHeight := curHeight;
      roundNum := roundNum + 1;
    }
  }

  // ---------------------------------------------------------------------
  // clean_price and the ad URL
  // ---------------------------------------------------------------------

  /** `clean_price`: the digits of the text, in order; "" for a missing or empty text. */
  function CleanPrice(text: Option<string>): (r: string)
    ensures forall i :: 0 <= i < |r| ==> IsDigitPy(r[i])
    ensures text.None? ==> r == ""
  {
    if text.None? || text.value == "" then "" else Keep(text.value, IsDigitPy)
  }

  /** Every digit of the text survives, the same number of times and in the same order. */
  lemma CleanPriceKeepsDigits(t: string)
    ensures forall c :: multiset(CleanPrice(Some(t)))[c] == if IsDigitPy(c) then multiset(t)[c] else 0
    ensures IsSubsequence(CleanPrice(Some(t)), t)
  {
    KeepCounts(t, IsDigitPy);
    KeepInOrder(t, IsDigitPy);
    if t == "" {
      EmptyIsSubsequence(t);
    }
  }

  /** Cleaning a cleaned price changes nothing. */
  lemma CleanPriceIdempotent(text: Option<string>)
    ensures CleanPrice(Some(CleanPrice(text))) == CleanPrice(text)
  {
    if text.Some? && text.value != "" {
      KeepIdempotent(text.value, IsDigitPy);
    }
    if CleanPrice(text) != "" {
      KeepAllKept(CleanPrice(text), IsDigitPy);
    }
  }

  /** White space around a price never matters to the digits kept. */
  lemma CleanPriceIgnoresPadding(t: string)
    ensures CleanPrice(Some(Strip(t, IsPySpace))) == CleanPrice(Some(t))
  {
    KeepStrip(t, IsPySpace, IsDigitPy);
    if Strip(t, IsPySpace) == "" {
      assert Keep("", IsDigitPy) == "";
    }
    if t == "" {
      assert Strip(t, IsPySpace) == "";
    }
  }

  /** A price text with no digit at all cleans to the empty string. */
  lemma CleanPriceWithoutDigits(t: string)
    requires forall i :: 0 <= i < |t| ==> !IsDigitPy(t[i])
    ensures CleanPrice(Some(t)) == ""
  {
    if t != "" {
      KeepNoneKept(t, IsDigitPy);
    }
  }

  /** A site-relative `href` gets the site's origin; an absolute or missing one is kept. */
  function AbsoluteUrl(href: Option<string>): (url: string)
    ensures url == "" <==> href.None? || href.value == ""
    ensures href.Some? && StartsWith(href.value, "http") ==> url == href.value
    ensures href.Some? && href.value != "" && !StartsWith(href.value, "http") ==> url == Origin + href.value
    ensures url != "" ==> StartsWith(url, "http") && |url| >= |href.value|
    ensures href.Some? && url != href.value ==> url[|url| - |href.value|..] == href.value
  {
    match href
    case None => ""
    case Some(h) => if h != "" && !StartsWith(h, "http") then Origin + h else h
  }

  /** Completing a completed URL changes nothing. */
  lemma AbsoluteUrlIdempotent(href: Option<string>)
    ensures AbsoluteUrl(Some(AbsoluteUrl(href))) == AbsoluteUrl(href)
  {
  }

  // ---------------------------------------------------------------------
  // One ad card
  // ---------------------------------------------------------------------

  /** The ad link `a.bama-ad.listing`: its `title` and `href` attributes. */
  datatype Link = Link(title: Option<string>, href: Option<string>)

  /**
   * What the card queries return: the link, the year cell's text, the
   * texts of the mileage cells, the trim text, and the texts of the price
   * and negotiable-price elements when present. `Unreadable` is a card on
   * which a query raised; the handler logs it and moves on.
   */
  datatype BamaCard =
    | Unreadable
    | Card(link: Option<Link>, year: Option<string>, mileage: seq<string>,
           description: Option<string>, price: Option<string>, negotiable: Option<string>)

  /**
   * The price and its status: a price element wins and is "fixed"; else a
   * negotiable element is "negotiable", its digits or the sentinel; with
   * neither the card is skipped.
   */
  function PriceOf(price: Option<string>, negotiable: Option<string>): (p: Option<(string, string)>)
    ensures p.None? <==> price.None? && negotiable.None?
    ensures p.Some? ==> (p.value.1 == StatusFixed <==> price.Some?)
    ensures p.Some? ==> p.value.1 == StatusFixed || p.value.1 == StatusNegotiable
    ensures price.Some? ==> p.value.0 == CleanPrice(price)
    ensures price.None? && negotiable.Some? ==>
      p.value.0 == (if CleanPrice(negotiable) == "" then Negotiable else CleanPrice(negotiable))
  {
    if price.Some? then Some((CleanPrice(price), StatusFixed))
    else if negotiable.Some? then
      var cleaned := CleanPrice(negotiable);
      Some((if cleaned == "" then Negotiable else cleaned, StatusNegotiable))
    else None
  }

  /** Python's `str.strip()` of an optional text, "" when absent. */
  function StripOr(text: Option<string>): string {
    Strip(text.GetOr(""), IsPySpace)
  }

  /** What every record the scraper keeps satisfies. */
  predicate ValidBamaRecord(r: Record, today: string) {
    && r.Keys == BamaColumns
    && r["model"] != ""
    && r["scrape_date"] == today
    && r["price"] != ""
    && (r["price_status"] == StatusFixed || r["price_status"] == StatusNegotiable)
    && (r["price_status"] == StatusFixed ==> forall i :: 0 <= i < |r["price"]| ==> IsDigitPy(r["price"][i]))
    && (r["source_url"] == "" || StartsWith(r["source_url"], "http"))
  }

  /** The dict literal of the scraper's `all_data.append`. */
  function BamaRecord(model: string, year: string, mileage: string, description: string,
                      price: string, status: string, url: string, today: string): (r: Record)
    ensures r.Keys == BamaColumns
    ensures r["model"] == model && r["year"] == year && r["mileage"] == mileage
    ensures r["description"] == description && r["price"] == price && r["price_status"] == status
    ensures r["source_url"] == url && r["scrape_date"] == today
  {
    map["model" := model, "year" := year, "mileage" := mileage, "description" := description,
        "price" := price, "price_status" := status, "source_url" := url, "scrape_date" := today]
  }

  /** The record a card yields, or `None` when the card is skipped. */
  function CardRecord(card: BamaCard, today: string): (r: Option<Record>)
    ensures r.Some? ==> ValidBamaRecord(r.value, today)
    // a card is kept exactly when it has a link with a non-blank title, and
    // either a price element with a digit, or no price element and a negotiable one
    ensures r.Some? <==>
      card.Card? && card.link.Some? && StripOr(card.link.value.title) != ""
      && (card.negotiable.Some? || card.price.Some?)
      && (card.price.Some? ==> CleanPrice(card.price) != "")
    ensures r.Some? ==>
      && r.value["model"] == StripOr(card.link.value.title)
      && r.value["year"] == StripOr(card.year)
      && r.value["mileage"] == Strip(Join(card.mileage, " "), IsPySpace)
      && r.value["description"] == StripOr(card.description)
      && r.value["source_url"] == AbsoluteUrl(card.link.value.href)
    // the price and its status follow the price rule
    ensures r.Some? ==>
      var p := PriceOf(card.price, card.negotiable);
      p.Some? && r.value["price"] == p.value.0 && r.value["price_status"] == p.value.1
  {
    match card
    case Unreadable => None
    case Card(link, year, mileage, description, price, negotiable) =>
      if link.None? then None
      else
        var model := StripOr(link.value.title);
        var url := AbsoluteUrl(link.value.href);
        match PriceOf(price, negotiable)
        case None => None
        case Some((amount, status)) =>
          if model != "" && (amount != "" || status == StatusNegotiable) then
            Some(BamaRecord(model, StripOr(year), Strip(Join(mileage, " "), IsPySpace),
                            StripOr(description), amount, status, url, today))
          else None
  }

  /** The records a card contributes: its record, or nothing. */
  function Emitted(card: BamaCard, today: string): seq<Record> {
    match CardRecord(card, today)
    case Some(r) => [r]
    case None => []
  }

  /** The records of the cards, in card order. */
  function Harvest(cards: seq<BamaCard>, today: string): (data: seq<Record>)
    ensures |data| <= |cards|
  {
    if cards == [] then []
    else Harvest(cards[..|cards| - 1], today) + Emitted(cards[|cards| - 1], today)
  }

  /** Every harvested record is a valid record of the day. */
  lemma {:induction false} HarvestValid(cards: seq<BamaCard>, today: string)
    ensures forall r :: r in Harvest(cards, today) ==> ValidBamaRecord(r, today)
  {
    if cards != [] {
      HarvestValid(cards[..|cards| - 1], today);
    }
  }

  /** Harvesting distributes over concatenation: cards are handled one at a time, in order. */
  lemma {:induction false} HarvestAppend(a: seq<BamaCard>, b: seq<BamaCard>, today: string)
    ensures Harvest(a + b, today) == Harvest(a, today) + Harvest(b, today)
    decreases |b|
  {
    if b == [] {
      assert a + b == a;
    } else {
      var b' := b[..|b| - 1];
      assert (a + b)[..|a + b| - 1] == a + b';
      HarvestAppend(a, b', today);
    }
  }

  /** One card: its own record, or nothing. */
  lemma HarvestOne(card: BamaCard, today: string)
    ensures Harvest([card], today) == Emitted(card, today)
  {
    assert [card][..0] == [];
  }

  /** A card whose reading raised is skipped and the cards after it are still harvested. */
  lemma UnreadableSkipped(a: seq<BamaCard>, b: seq<BamaCard>, today: string)
    ensures Harvest(a + [Unreadable] + b, today) == Harvest(a, today) + Harvest(b, today)
  {
    HarvestOne(Unreadable, today);
    HarvestAppend(a, [Unreadable], today);
    assert Harvest(a + [Unreadable], today) == Harvest(a, today);
    HarvestAppend(a + [Unreadable], b, today);
  }

  /** The loop over the cards, appending each kept card's record. */
  method ExtractCards(cards: seq<BamaCard>, today: string) returns (data: seq<Record>)
    ensures data == Harvest(cards, today)
  {
    data := [];
    var idx := 0;
    while idx < |cards|
      invariant 0 <= idx <= |cards|
      invariant data == Harvest(cards[..idx], today)
    {
      assert cards[..idx + 1][..idx] == cards[..idx];
      assert Harvest(cards[..idx + 1], today) == Harvest(cards[..idx], today) + Emitted(cards[idx], today);
      var r := CardRecord(cards[idx], today);
      if r.Some? {
        data := data + [r.value];
      }
      idx := idx + 1;
    }
    assert cards[..idx] == cards;
  }

  /** A non-empty bama.ir batch always carries the key columns, so it is saved. */
  lemma {:induction false} BamaBatchSaved(cards: seq<BamaCard>, today: string, day: string)
    requires Harvest(cards, today) != []
    ensures SaveToCsv(Harvest(cards, today), "bama", OutputDir, day, BackupEnabled).Saved?
  {
    var data := Harvest(cards, today);
    HarvestValid(cards, today);
    assert data[0] in data;
    assert forall c :: c in KeyColumns ==> c in data[0];
  }

  // ---------------------------------------------------------------------
  // scrape()
  // ---------------------------------------------------------------------

  /** What the listing page does once a session is up. */
  datatype BamaPage =
    | PageFails                                    // `goto`, a scroll or the card query raised
    | Listing(height: nat -> int, cards: seq<BamaCard>)

  /**
   * One run's environment: the engines, the listing, the scraper's
   * `today`, the day `save_to_csv` reads from its own clock, and whether
   * the closing `browser.close()` raises.
   */
  datatype BamaRun = BamaRun(engines: seq<EngineScript>, page: BamaPage, today: string,
                             saveDay: string, browserCloseRaises: bool)

  /** The report of the `try` block once a session is up. */
  function ListingReport(run: BamaRun): (rep: Report)
    // the records collected are those the cards give, in card order
    ensures run.page.Listing? ==> rep.collected == Harvest(run.page.cards, run.today)
    // a listing page that raised ends the `try` with nothing collected or saved
    ensures !run.page.Listing? ==> rep == NothingDone
    // every collected record is valid, and a save that happens succeeds
    ensures forall r :: r in rep.collected ==> ValidBamaRecord(r, run.today)
    ensures rep.saved.Some? <==> rep.collected != []
    ensures rep.saved.Some? ==> rep.saved.value.Saved? && rep.saved.value.path == PrimaryPath(OutputDir, "bama", run.saveDay)
    // and what is written is the collected batch, saved as `save_to_csv` saves it
    ensures rep.saved.Some? ==> rep.saved == Some(SaveToCsv(rep.collected, "bama", OutputDir, run.saveDay, BackupEnabled))
  {
    match run.page
    case PageFails => NothingDone
    case Listing(_, cards) =>
      var data := Harvest(cards, run.today);
      HarvestValid(cards, run.today);
      if data == [] then Report(data, None)
      else
        BamaBatchSaved(cards, run.today, run.saveDay);
        Report(data, Some(SaveToCsv(data, "bama", OutputDir, run.saveDay, BackupEnabled)))
  }

  /** How `scrape()` ends in the run's environment. */
  function BamaScrape(run: BamaRun, rules: BlockRules): (end: ScrapeEnd)
    // only a raising close escapes: in the fallback, or the final one
    ensures end.escaped.Some? <==>
      Acquire(run.engines, rules).CloseEscaped? || (Acquire(run.engines, rules).Ready? && run.browserCloseRaises)
    ensures Acquire(run.engines, rules).CloseEscaped? ==>
      var a := Acquire(run.engines, rules);
      end == ScrapeEnd(NothingDone, Some(EngineCloseFailed(a.engine, a.kind)))
    // without a session the run returns having done nothing
    ensures Acquire(run.engines, rules).NoSession? ==> end == ScrapeEnd(NothingDone, None)
    // with a session the report is that of the `try` block
    ensures Acquire(run.engines, rules).Ready? ==> end.report == ListingReport(run)
    // and what escapes then is the final `browser.close()`'s own error
    ensures Acquire(run.engines, rules).Ready? ==>
      end.escaped == (if run.browserCloseRaises then Some(BrowserCloseFailed) else None)
    // every collected record is valid, and a save that happens succeeds
    ensures forall r :: r in end.report.collected ==> ValidBamaRecord(r, run.today)
    ensures end.report.saved.Some? ==> end.report.collected != [] && end.report.saved.value.Saved?
  {
    match Acquire(run.engines, rules)
    case CloseEscaped(e, k) => ScrapeEnd(NothingDone, Some(EngineCloseFailed(e, k)))
    case NoSession => ScrapeEnd(NothingDone, None)
    case Ready(_) =>
      ScrapeEnd(ListingReport(run), if run.browserCloseRaises then Some(BrowserCloseFailed) else None)
  }

  /**
   * `scrape()` step by step: the engine fallback loop, the scroll loop and
   * the card loop, composed as the coroutine composes them.
   */
  method ScrapeBama(run: BamaRun, rules: BlockRules) returns (end: ScrapeEnd)
    ensures end == BamaScrape(run, rules)
  {
    var acquired: Acquisition;
    ghost var created: set<Handle>, released: set<Handle>;
    acquired, created, released := AcquireSession(run.engines, rules);
    if acquired.CloseEscaped? {
      return ScrapeEnd(NothingDone, Some(EngineCloseFailed(acquired.engine, acquired.kind)));
    }
    if acquired.NoSession? {
      // "Browser launch failed. Exiting."
      return ScrapeEnd(NothingDone, None);
    }
    var report := NothingDone;
    match run.page {
      case PageFails =>
      case Listing(height, cards) =>
        var rounds, settled, waitedMs := ScrollAndLoad(height);
        var data := ExtractCards(cards, run.today);
        if data != [] {
          report := Report(data, Some(SaveToCsv(data, "bama", OutputDir, run.saveDay, BackupEnabled)));
        } else {
          report := Report(data, None);
        }
    }
    end := ScrapeEnd(report, if run.browserCloseRaises then Some(BrowserCloseFailed) else None);
  }

  /**
   * `scrape()` under `@retry(max_attempts=3, delay=3.0)`: run `k` sees the
   * environment `runs(k)`.
   */
  method RunBama(runs: nat -> BamaRun, rules: BlockRules)
    returns (calls: nat, waits: seq<int>, result: RetryResult<Report, Fault>)
    ensures 1 <= calls <= MaxAttempts
    ensures waits == Backoff(RetryDelayMs, calls - 1)
    ensures forall k :: 1 <= k < calls ==> BamaScrape(runs(k), rules).escaped.Some?
    ensures result.Succeeded? <==> BamaScrape(runs(calls), rules).escaped.None?
    ensures result.Succeeded? ==> result.value == BamaScrape(runs(calls), rules).report
    ensures result.Reraised? ==> calls == MaxAttempts && Some(result.error) == BamaScrape(runs(calls), rules).escaped
    // a failed launch is not an exception, so it is never retried
    ensures Acquire(runs(1).engines, rules).NoSession? ==> calls == 1 && result == Succeeded(NothingDone)
  {
    var call := (k: nat) => AsAttempt(BamaScrape(runs(k), rules));
    calls, waits, result := Retry(MaxAttempts, RetryDelayMs, call);
    forall k | 1 <= k < calls
      ensures BamaScrape(runs(k), rules).escaped.Some?
    {
      assert call(k).Raised?;
    }
  }
}

=== FILE: divar.dfy ===
/**
 * The divar.ir scraper: launch chromium directly (no fallback), open the
 * feed, scroll it a fixed 15 times, extract model, mileage and price from
 * every post card in one page script, save the batch and close the
 * browser; the run is wrapped in a retry that allows a single attempt.
 *
 * The page script is JavaScript, so its text handling follows JavaScript:
 * `trim()` strips `IsJsSpace`, and `\d` keeps only ASCII digits.
 */
module Divar {
  import opened Wrappers
  import opened Text
  import opened Records
  import opened Persistence
  import opened Session
  import opened Outcome
  import opened Retrying

  const DivarUrl: string := "https://divar.ir/s/tehran/car"
  const ScrollRounds: nat := 15
  /** Each scroll is `window.scrollBy(0, 1400)`. */
  const ScrollStepPx: nat := 1400
  const MaxAttempts: nat := 1
  const RetryDelayMs: nat := 0

  // ---------------------------------------------------------------------
  // The feed scroll
  // ---------------------------------------------------------------------

  /**
   * Fifteen scrolls of 1400 pixels whatever the feed does; after each one
   * the number of post cards on the page is read (and only logged).
   */
  method ScrollFeed(count: nat -> int) returns (rounds: nat, scrolledPx: nat, seen: seq<int>)
    ensures rounds == ScrollRounds
    ensures scrolledPx == ScrollRounds * ScrollStepPx
    ensures |seen| == ScrollRounds && forall i :: 0 <= i < ScrollRounds ==> seen[i] == count(i + 1)
  {
    rounds, scrolledPx, seen := 0, 0, [];
    for i := 0 to ScrollRounds
      invariant rounds == i && scrolledPx == i * ScrollStepPx
      invariant |seen| == i && forall j :: 0 <= j < i ==> seen[j] == count(j + 1)
    {
      scrolledPx := scrolledPx + ScrollStepPx;
      seen := seen + [count(i + 1)];
      rounds := rounds + 1;
    }
  }

  // ---------------------------------------------------------------------
  // The extraction script
  // ---------------------------------------------------------------------

  /**
   * A post card as the script sees it: the inner text of its
   * `.post-card__title` when present, and of each `.post-card__description`.
   */
  datatype DivarCard = DivarCard(title: Option<string>, descriptions: seq<string>)

  /** The object `{ model, mileage, price }` the script returns for a card. */
  datatype RawItem = RawItem(model: string, mileage: string, price: string)

  /**
   * `priceRaw.replace(/[^\d]/g, '') || 'tavafoghi'`: the ASCII digits of
   * the trimmed text, or the negotiable sentinel when there are none.
   */
  function ScriptPrice(text: string): (price: string)
    ensures price == Negotiable || (price != "" && forall i :: 0 <= i < |price| ==> IsAsciiDigit(price[i]))
    ensures price == Negotiable <==> Keep(text, IsAsciiDigit) == ""
    // otherwise it is exactly the ASCII digits of the text, in order
    ensures Keep(text, IsAsciiDigit) != "" ==> price == Keep(text, IsAsciiDigit)
  {
    var digits := Keep(Strip(text, IsJsSpace), IsAsciiDigit);
    KeepStrip(text, IsJsSpace, IsAsciiDigit);
    assert Negotiable[0] == '\U{062A}';
    if digits == "" then Negotiable else digits
  }

  /** The script's map step: `null` for a card without a title or with fewer than two descriptions. */
  function ItemOf(card: DivarCard): (item: Option<RawItem>)
    ensures item.Some? <==> card.title.Some? && |card.descriptions| >= 2
    ensures item.Some? ==>
      && item.value.model == Strip(card.title.value, IsJsSpace)
      && item.value.mileage == Strip(card.descriptions[0], IsJsSpace)
      && item.value.price == ScriptPrice(card.descriptions[1])
  {
    if card.title.None? || |card.descriptions| < 2 then None
    else Some(RawItem(Strip(card.title.value, IsJsSpace), Strip(card.descriptions[0], IsJsSpace),
                      ScriptPrice(card.descriptions[1])))
  }

  /** What a card contributes after the filter: its item, or nothing. */
  function Kept(card: DivarCard): seq<RawItem> {
    match ItemOf(card)
    case Some(item) => [item]
    case None => []
  }

  /** The script: map every card, then `.filter(x => x)` drops the nulls. */
  function ExtractItems(cards: seq<DivarCard>): (items: seq<RawItem>)
    ensures |items| <= |cards|
  {
    if cards == [] then [] else Kept(cards[0]) + ExtractItems(cards[1..])
  }

  /** Extraction handles the cards one at a time, in order. */
  lemma {:induction false} ExtractItemsAppend(a: seq<DivarCard>, b: seq<DivarCard>)
    ensures ExtractItems(a + b) == ExtractItems(a) + ExtractItems(b)
  {
    if a == [] {
      assert a + b == b;
    } else {
      assert (a + b)[0] == a[0] && (a + b)[1..] == a[1..] + b;
      ExtractItemsAppend(a[1..], b);
      assert ExtractItems(a + b) == Kept(a[0]) + ExtractItems(a[1..] + b);
    }
  }

  /** Every extracted price is the sentinel or a non-empty run of ASCII digits. */
  lemma {:induction false} ExtractedPrices(cards: seq<DivarCard>)
    ensures forall item :: item in ExtractItems(cards) ==>
      item.price == Negotiable || (item.price != "" && forall i :: 0 <= i < |item.price| ==> IsAsciiDigit(item.price[i]))
  {
    if cards != [] {
      ExtractedPrices(cards[1..]);
    }
  }

  /**
   * The filter only drops nulls: a card whose title is blank still yields
   * an item, with an empty model.
   */
  lemma BlankTitleKept(blank: string, descriptions: seq<string>)
    requires forall i :: 0 <= i < |blank| ==> IsJsSpace(blank[i])
    requires |descriptions| >= 2
    ensures ExtractItems([DivarCard(Some(blank), descriptions)]) ==
      [RawItem("", Strip(descriptions[0], IsJsSpace), ScriptPrice(descriptions[1]))]
  {
    StripBlank(blank, IsJsSpace);
  }

  /** JavaScript's `\d` is ASCII only: a price written in Persian digits becomes the sentinel. */
  lemma PersianDigitsPriceIsNegotiable(text: string)
    requires forall i :: 0 <= i < |text| ==> '۰' <= text[i] <= '۹'
    ensures ScriptPrice(text) == Negotiable
  {
    if text != "" {
      KeepNoneKept(text, IsAsciiDigit);
    }
  }

  // ---------------------------------------------------------------------
  // Building the records
  // ---------------------------------------------------------------------

  /** The dict the scraper appends, as written: five keys, no `year`. */
  function DivarRecordAsWritten(item: RawItem, today: string): (r: Record)
    ensures r.Keys == DivarColumns
    ensures r["model"] == item.model && r["mileage"] == item.mileage && r["price"] == item.price
    ensures r["source_url"] == DivarUrl && r["scrape_date"] == today
  {
    map["model" := item.model, "mileage" := item.mileage, "price" := item.price,
        "source_url" := DivarUrl, "scrape_date" := today]
  }

  /**
   * The record with the empty `year` the de-duplication needs: the five
   * key columns are present, as in every bama.ir record.
   */
  function DivarRecord(item: RawItem, today: string): (r: Record)
    ensures r.Keys == DivarColumns + {"year"}
    ensures forall c :: c in KeyColumns ==> c in r
    ensures r["model"] == item.model && r["year"] == "" && r["mileage"] == item.mileage
    ensures r["price"] == item.price && r["source_url"] == DivarUrl && r["scrape_date"] == today
  {
    DivarRecordAsWritten(item, today)["year" := ""]
  }

  /** The loop over the script's items, one record each, in order. */
  method AssembleRecords(items: seq<RawItem>, today: string) returns (data: seq<Record>)
    ensures |data| == |items|
    ensures forall i :: 0 <= i < |items| ==> data[i] == DivarRecord(items[i], today)
  {
    data := [];
    for i := 0 to |items|
      invariant |data| == i
      invariant forall j :: 0 <= j < i ==> data[j] == DivarRecord(items[j], today)
    {
      data := data + [DivarRecord(items[i], today)];
    }
  }

  /** The batch `AssembleRecords` builds. */
  function Batch(items: seq<RawItem>, today: string): seq<Record> {
    seq(|items|, i requires 0 <= i < |items| => DivarRecord(items[i], today))
  }

  /** The batch the scraper as written builds. */
  function BatchAsWritten(items: seq<RawItem>, today: string): (batch: seq<Record>)
    // one record per item, none of them with a `year`
    ensures |batch| == |items|
    ensures forall r :: r in batch ==> r.Keys == DivarColumns && "year" !in r
    // record i is item i's record, dated today
    ensures forall i :: 0 <= i < |items| ==> batch[i] == DivarRecordAsWritten(items[i], today)
  {
    seq(|items|, i requires 0 <= i < |items| => DivarRecordAsWritten(items[i], today))
  }

  /**
   * As written, every non-empty divar.ir batch makes `save_to_csv` raise
   * KeyError for the missing `year` column.
   */
  lemma AsWrittenSaveRaises(items: seq<RawItem>, today: string, day: string)
    requires items != []
    ensures SaveToCsv(BatchAsWritten(items, today), "divar", OutputDir, day, BackupEnabled) == KeyError({"year"})
  {
    var data := BatchAsWritten(items, today);
    assert data[0] in data;
    forall c | c in MissingKeyColumns(data)
      ensures c == "year"
    {
      assert c !in data[0];
    }
    assert "year" in MissingKeyColumns(data);
  }

  /** With the `year` column every non-empty batch is saved, de-duplicated and sorted. */
  lemma CorrectedSaveSucceeds(items: seq<RawItem>, today: string, day: string)
    requires items != []
    ensures SaveToCsv(Batch(items, today), "divar", OutputDir, day, BackupEnabled).Saved?
    ensures SaveToCsv(Batch(items, today), "divar", OutputDir, day, BackupEnabled).path == PrimaryPath(OutputDir, "divar", day)
  {
    var data := Batch(items, today);
    assert data[0] in data;
    assert forall c :: c in KeyColumns ==> c in data[0];
  }

  // ---------------------------------------------------------------------
  // scrape()
  // ---------------------------------------------------------------------

  /** What the feed does once the page is open. */
  datatype DivarPage =
    | FeedFails                                       // `goto`, the card wait, a scroll or the script raised
    | Feed(count: nat -> int, cards: seq<DivarCard>)

  /**
   * One run's environment: the launch step that raises, if any (launch,
   * `new_context`, `new_page` and `add_init_script` all run before the
   * `try`), the feed, the scraper's `today`, `save_to_csv`'s own day, and
   * whether the closing `browser.close()` raises.
   */
  datatype DivarRun = DivarRun(launchRaises: Option<Stage>, page: DivarPage, today: string,
                               saveDay: string, browserCloseRaises: bool)

  /** The report of the `try` block. */
  function FeedReport(run: DivarRun): (rep: Report)
    // every card with a title and two descriptions becomes a record, in order
    ensures run.page.Feed? ==> rep.collected == Batch(ExtractItems(run.page.cards), run.today)
    // and a non-empty batch is written to the day's file
    ensures rep.saved.Some? <==> rep.collected != []
    ensures rep.collected != [] ==> WrittenFile(rep) == Some(PrimaryPath(OutputDir, "divar", run.saveDay))
    // and what is written is the collected batch, saved as `save_to_csv` saves it
    ensures rep.saved.Some? ==> rep.saved == Some(SaveToCsv(rep.collected, "divar", OutputDir, run.saveDay, BackupEnabled))
  {
    match run.page
    case FeedFails => NothingDone
    case Feed(_, cards) =>
      var items := ExtractItems(cards);
      var data := Batch(items, run.today);
      if data == [] then Report(data, None)
      else
        CorrectedSaveSucceeds(items, run.today, run.saveDay);
        Report(data, Some(SaveToCsv(data, "divar", OutputDir, run.saveDay, BackupEnabled)))
  }

  /** How `scrape()` ends in the run's environment. */
  function DivarScrape(run: DivarRun): (end: ScrapeEnd)
    // a launch step raises out of the run; otherwise only the final close can
    ensures end.escaped.Some? <==> run.launchRaises.Some? || run.browserCloseRaises
    ensures run.launchRaises.Some? ==> end == ScrapeEnd(NothingDone, Some(LaunchFailed(run.launchRaises.value)))
    ensures run.launchRaises.None? ==> end.report == FeedReport(run)
    // and what escapes then is the final `browser.close()`'s own error
    ensures run.launchRaises.None? ==>
      end.escaped == (if run.browserCloseRaises then Some(BrowserCloseFailed) else None)
  {
    match run.launchRaises
    case Some(stage) => ScrapeEnd(NothingDone, Some(LaunchFailed(stage)))
    case None =>
      ScrapeEnd(FeedReport(run), if run.browserCloseRaises then Some(BrowserCloseFailed) else None)
  }

  /** The report of the `try` block as written, whose batch lacks `year`. */
  function FeedReportAsWritten(run: DivarRun): (rep: Report)
    ensures run.page.Feed? ==> rep.collected == BatchAsWritten(ExtractItems(run.page.cards), run.today)
    // `save_to_csv` is called for a non-empty batch, and then always raises KeyError for `year`
    ensures rep.saved.Some? <==> rep.collected != []
    ensures rep.collected != [] ==> rep.saved == Some(KeyError({"year"}))
  {
    match run.page
    case FeedFails => NothingDone
    case Feed(_, cards) =>
      var items := ExtractItems(cards);
      var data := BatchAsWritten(items, run.today);
      if data == [] then Report(data, None)
      else
        AsWrittenSaveRaises(items, run.today, run.saveDay);
        Report(data, Some(SaveToCsv(data, "divar", OutputDir, run.saveDay, BackupEnabled)))
  }

  /** How `scrape()` as written ends. */
  function DivarScrapeAsWritten(run: DivarRun): (end: ScrapeEnd)
    // only a launch step or the final close raises out of the run
    ensures end.escaped.Some? <==> run.launchRaises.Some? || run.browserCloseRaises
    ensures run.launchRaises.Some? ==> end == ScrapeEnd(NothingDone, Some(LaunchFailed(run.launchRaises.value)))
    ensures run.launchRaises.None? ==> end.report == FeedReportAsWritten(run)
    ensures run.launchRaises.None? ==>
      end.escaped == (if run.browserCloseRaises then Some(BrowserCloseFailed) else None)
    // any save it attempts raised KeyError
    ensures end.report.saved.Some? ==> end.report.saved.value == KeyError({"year"})
  {
    match run.launchRaises
    case Some(stage) => ScrapeEnd(NothingDone, Some(LaunchFailed(stage)))
    case None =>
      ScrapeEnd(FeedReportAsWritten(run), if run.browserCloseRaises then Some(BrowserCloseFailed) else None)
  }

  /**
   * As written, a run that extracts any item has its save raise KeyError
   * for `year`; the `except` swallows it, so the run ends exactly as the
   * corrected one would as far as exceptions go.
   */
  lemma AsWrittenKeyErrorCaught(run: DivarRun)
    ensures DivarScrapeAsWritten(run).escaped == DivarScrape(run).escaped
    ensures run.launchRaises.None? && run.page.Feed? && ExtractItems(run.page.cards) != [] ==>
      DivarScrapeAsWritten(run).report.saved == Some(KeyError({"year"}))
  {
    if run.launchRaises.None? && run.page.Feed? && ExtractItems(run.page.cards) != [] {
      AsWrittenSaveRaises(ExtractItems(run.page.cards), run.today, run.saveDay);
    }
  }

  /** As written, a divar.ir run never writes a CSV file. */
  lemma AsWrittenNeverWrites(run: DivarRun)
    ensures WrittenFile(DivarScrapeAsWritten(run).report) == None
  {
    if run.launchRaises.None? && run.page.Feed? && ExtractItems(run.page.cards) != [] {
      AsWrittenSaveRaises(ExtractItems(run.page.cards), run.today, run.saveDay);
    }
  }

  /**
   * `scrape()` step by step: the scroll loop, the extraction and the loop
   * that appends one record per item, composed as the coroutine composes them.
   */
  method ScrapeDivar(run: DivarRun) returns (end: ScrapeEnd)
    ensures end == DivarScrape(run)
  {
    if run.launchRaises.Some? {
      return ScrapeEnd(NothingDone, Some(LaunchFailed(run.launchRaises.value)));
    }
    var report := NothingDone;
    match run.page {
      case FeedFails =>
      case Feed(count, cards) =>
        var rounds, scrolledPx, seen := ScrollFeed(count);
        var items := ExtractItems(cards);
        var data := AssembleRecords(items, run.today);
        assert data == Batch(items, run.today);
        if data != [] {
          report := Report(data, Some(SaveToCsv(data, "divar", OutputDir, run.saveDay, BackupEnabled)));
        } else {
          report := Report(data, None);
        }
    }
    end := ScrapeEnd(report, if run.browserCloseRaises then Some(BrowserCloseFailed) else None);
  }

  /** `scrape()` under `@retry(max_attempts=1, delay=0)`: one call, no wait, its exception re-raised. */
  method RunDivar(runs: nat -> DivarRun) returns (calls: nat, waits: seq<int>, result: RetryResult<Report, Fault>)
    ensures calls == 1 && waits == []
    ensures result.Succeeded? <==> DivarScrape(runs(1)).escaped.None?
    ensures result.Succeeded? ==> result.value == DivarScrape(runs(1)).report
    ensures result.Reraised? ==> Some(result.error) == DivarScrape(runs(1)).escaped
  {
    var call := (k: nat) => AsAttempt(DivarScrape(runs(k)));
    calls, waits, result := Retry(MaxAttempts, RetryDelayMs, call);
  }
}

=== FILE: outcome.dfy ===
/** How one run of a site's `scrape()` coroutine ends. */
module Outcome {
  import opened Wrappers
  import opened Records
  import opened Persistence
  import opened Session
  import Retrying

  /** An exception that leaves `scrape()`, and so reaches the retry wrapper. */
  datatype Fault =
    | EngineCloseFailed(engine: nat, kind: HandleKind)  // a close inside the engine fallback raised
    | LaunchFailed(stage: Stage)                         // divar.ir's own launch, outside its `try`, raised
    | BrowserCloseFailed                                 // the `browser.close()` in the `finally` raised

  /**
   * What a run did: the records it collected and what `save_to_csv` did
   * with them (`None` when it was not called). `save_to_csv` runs inside
   * the scraper's `try`, whose `except Exception` logs and swallows what it
   * raises, so a KeyError shows up here as `Some(KeyError(...))`.
   */
  datatype Report = Report(collected: seq<Record>, saved: Option<SaveResult>)

  /**
   * A run's end: its report, and the exception that escaped it, if any.
   * A run can write its file and still raise (from the closing
   * `browser.close()`), so the two are independent.
   */
  datatype ScrapeEnd = ScrapeEnd(report: Report, escaped: Option<Fault>)

  const NothingDone := Report([], None)

  /** The same run as seen by the retry wrapper (`scrape()` itself returns `None`). */
  function AsAttempt(end: ScrapeEnd): (a: Retrying.Attempt<Report, Fault>)
    ensures a.Raised? <==> end.escaped.Some?
  {
    match end.escaped
    case Some(f) => Retrying.Raised(f)
    case None => Retrying.Returned(end.report)
  }

  /** The primary CSV file a run wrote, if it wrote one. */
  function WrittenFile(rep: Report): Option<string> {
    if rep.saved.Some? && rep.saved.value.Saved? then Some(rep.saved.value.path) else None
  }
}

=== FILE: persistence.dfy ===
/**
 * `save_to_csv`: a batch of records is deduplicated on the five-column key,
 * sorted by model and written to a dated primary file, with an identical
 * backup when backups are enabled. Only the row sequence and the path
 * strings are modelled; the CSV bytes are not.
 */
module Persistence {
  import opened Wrappers
  import opened Text
  import opened Records

  /** The columns `drop_duplicates` compares. */
  const KeyColumns: seq<string> := ["model", "year", "mileage", "price", "source_url"]

  /** A DataFrame cell: a record without the column reads as NaN, here `None`. */
  function Cell(r: Record, col: string): Option<string> {
    if col in r then Some(r[col]) else None
  }

  /** The dedup key of a record: five cells. NaN equals NaN for `drop_duplicates`, as `None` equals `None` here. */
  datatype Key = Key(model: Option<string>, year: Option<string>, mileage: Option<string>,
                     price: Option<string>, sourceUrl: Option<string>)

  function DedupKey(r: Record): Key {
    Key(Cell(r, "model"), Cell(r, "year"), Cell(r, "mileage"), Cell(r, "price"), Cell(r, "source_url"))
  }

  /** The keys of `rows`, position by position. */
  function Keys(rows: seq<Record>): (ks: seq<Key>)
    ensures |ks| == |rows|
    ensures forall i :: 0 <= i < |rows| ==> ks[i] == DedupKey(rows[i])
  {
    seq(|rows|, i requires 0 <= i < |rows| => DedupKey(rows[i]))
  }

  /** No two rows share a dedup key. */
  predicate DistinctKeys(rows: seq<Record>) {
    forall i, j :: 0 <= i < j < |rows| ==> DedupKey(rows[i]) != DedupKey(rows[j])
  }

  /** Row `i` is the first of `rows` with its dedup key. */
  predicate FirstOfKey(rows: seq<Record>, i: int)
    requires 0 <= i < |rows|
  {
    forall j :: 0 <= j < i ==> DedupKey(rows[j]) != DedupKey(rows[i])
  }

  // ---------------------------------------------------------------------
  // drop_duplicates(subset=KeyColumns), keeping the first occurrence
  // ---------------------------------------------------------------------

  function DropDuplicates(rows: seq<Record>): (out: seq<Record>)
    ensures |out| <= |rows|
    decreases |rows|
  {
    if rows == [] then []
    else
      var kept := DropDuplicates(rows[..|rows| - 1]);
      var last := rows[|rows| - 1];
      if DedupKey(last) in Keys(kept) then kept else kept + [last]
  }

  /** Deduplication only drops rows. */
  lemma {:induction false} DedupMembers(rows: seq<Record>)
    ensures forall x :: x in DropDuplicates(rows) ==> x in rows
  {
    if rows != [] {
      var init := rows[..|rows| - 1];
      DedupMembers(init);
      assert forall x :: x in init ==> x in rows;
    }
  }

  /** Every key of the batch is still present after deduplication. */
  lemma {:induction false} DedupCovers(rows: seq<Record>)
    ensures forall i :: 0 <= i < |rows| ==> DedupKey(rows[i]) in Keys(DropDuplicates(rows))
  {
    if rows != [] {
      var init := rows[..|rows| - 1];
      var last := rows[|rows| - 1];
      var kept := DropDuplicates(init);
      DedupCovers(init);
      forall i | 0 <= i < |rows|
        ensures DedupKey(rows[i]) in Keys(DropDuplicates(rows))
      {
        var out := DropDuplicates(rows);
        assert forall k :: k in Keys(kept) ==> k in Keys(out) by {
          if out != kept {
            assert Keys(out) == Keys(kept) + [DedupKey(last)];
          }
        }
        if i < |rows| - 1 {
          assert rows[i] == init[i];
        } else if out != kept {
          assert Keys(out)[|kept|] == DedupKey(last);
        }
      }
    }
  }

  /** After deduplication no two rows share a key. */
  lemma {:induction false} DedupDistinct(rows: seq<Record>)
    ensures DistinctKeys(DropDuplicates(rows))
  {
    if rows != [] {
      var init := rows[..|rows| - 1];
      var last := rows[|rows| - 1];
      var kept := DropDuplicates(init);
      DedupDistinct(init);
      if DedupKey(last) !in Keys(kept) {
        var out := kept + [last];
        forall i, j | 0 <= i < j < |out|
          ensures DedupKey(out[i]) != DedupKey(out[j])
        {
          if j == |kept| {
            assert Keys(kept)[i] == DedupKey(out[i]);
          } else {
            assert out[i] == kept[i] && out[j] == kept[j];
          }
        }
      }
    }
  }

  /** Every row that is the first of its key survives deduplication. */
  lemma {:induction false} FirstOccurrenceKept(rows: seq<Record>, i: int)
    requires 0 <= i < |rows| && FirstOfKey(rows, i)
    ensures rows[i] in DropDuplicates(rows)
    decreases |rows|
  {
    var init := rows[..|rows| - 1];
    var last := rows[|rows| - 1];
    var kept := DropDuplicates(init);
    if i < |rows| - 1 {
      assert FirstOfKey(init, i) by {
        forall j | 0 <= j < i ensures DedupKey(init[j]) != DedupKey(init[i]) {
          assert init[j] == rows[j] && init[i] == rows[i];
        }
      }
      FirstOccurrenceKept(init, i);
    } else {
      DedupMembers(init);
      forall j | 0 <= j < |kept|
        ensures Keys(kept)[j] != DedupKey(last)
      {
        assert kept[j] in init;
        var m :| 0 <= m < |init| && init[m] == kept[j];
        assert rows[m] == kept[j];
      }
      assert DedupKey(last) !in Keys(kept);
      assert DropDuplicates(rows) == kept + [last];
    }
  }

  /** Every surviving row is the first occurrence of its key. */
  lemma {:induction false} SurvivorIsFirst(rows: seq<Record>, x: Record)
    requires x in DropDuplicates(rows)
    ensures exists i :: 0 <= i < |rows| && rows[i] == x && FirstOfKey(rows, i)
    decreases |rows|
  {
    var init := rows[..|rows| - 1];
    var last := rows[|rows| - 1];
    var kept := DropDuplicates(init);
    if x in kept {
      SurvivorIsFirst(init, x);
      var i :| 0 <= i < |init| && init[i] == x && FirstOfKey(init, i);
      assert rows[i] == x;
      assert FirstOfKey(rows, i) by {
        forall j | 0 <= j < i ensures DedupKey(rows[j]) != DedupKey(rows[i]) {
          assert init[j] == rows[j];
        }
      }
    } else {
      assert DropDuplicates(rows) == kept + [last] && x == last;
      DedupCovers(init);
      assert FirstOfKey(rows, |rows| - 1) by {
        forall j | 0 <= j < |rows| - 1
          ensures DedupKey(rows[j]) != DedupKey(rows[|rows| - 1])
        {
          assert init[j] == rows[j];
        }
      }
    }
  }

  /** Rows whose keys are already distinct are left as they are. */
  lemma {:induction false} DistinctUnchanged(rows: seq<Record>)
    requires DistinctKeys(rows)
    ensures DropDuplicates(rows) == rows
    decreases |rows|
  {
    if rows != [] {
      var init := rows[..|rows| - 1];
      var last := rows[|rows| - 1];
      assert DistinctKeys(init) by {
        forall i, j | 0 <= i < j < |init| ensures DedupKey(init[i]) != DedupKey(init[j]) {
          assert init[i] == rows[i] && init[j] == rows[j];
        }
      }
      DistinctUnchanged(init);
      forall j | 0 <= j < |init|
        ensures Keys(init)[j] != DedupKey(last)
      {
        assert init[j] == rows[j];
      }
      assert DedupKey(last) !in Keys(init);
      assert rows == init + [last];
    }
  }

  /** Deduplicating twice is deduplicating once. */
  lemma DropDuplicatesIdempotent(rows: seq<Record>)
    ensures DropDuplicates(DropDuplicates(rows)) == DropDuplicates(rows)
  {
    DedupDistinct(rows);
    DistinctUnchanged(DropDuplicates(rows));
  }

  /**
   * Two records that agree on the key but differ elsewhere (description,
   * price_status, scrape_date) collapse to the first of them.
   */
  lemma SameKeyCollapses(a: Record, b: Record)
    requires DedupKey(a) == DedupKey(b)
    ensures DropDuplicates([a, b]) == [a]
  {
    assert [a, b][..1] == [a];
    assert DropDuplicates([a]) == [a] by {
      assert [a][..0] == [];
      assert Keys([]) == [];
    }
    assert Keys([a])[0] == DedupKey(b);
  }

  // ---------------------------------------------------------------------
  // sort_values("model")
  // ---------------------------------------------------------------------

  /** Order of two `model` cells: Python string order, NaN placed last. */
  predicate CellLe(a: Option<string>, b: Option<string>) {
    match a
    case None => b.None?
    case Some(x) => b.None? || StrLe(x, b.value)
  }

  predicate ModelLe(a: Record, b: Record) {
    CellLe(Cell(a, "model"), Cell(b, "model"))
  }

  lemma ModelLeTotal(a: Record, b: Record)
    ensures ModelLe(a, b) || ModelLe(b, a)
  {
    if "model" in a && "model" in b {
      StrLeTotal(a["model"], b["model"]);
    }
  }

  lemma ModelLeTransitive(a: Record, b: Record, c: Record)
    requires ModelLe(a, b) && ModelLe(b, c)
    ensures ModelLe(a, c)
  {
    if "model" in a && "model" in b && "model" in c {
      StrLeTransitive(a["model"], b["model"], c["model"]);
    }
  }

  predicate SortedByModel(rows: seq<Record>) {
    forall i, j :: 0 <= i < j < |rows| ==> ModelLe(rows[i], rows[j])
  }

  /** A row no later than any row of a sorted batch can go in front of it. */
  lemma PrependSorted(r: Record, sorted: seq<Record>)
    requires SortedByModel(sorted)
    requires forall x :: x in sorted ==> ModelLe(r, x)
    ensures SortedByModel([r] + sorted)
  {
    var out := [r] + sorted;
    forall i, j | 0 <= i < j < |out|
      ensures ModelLe(out[i], out[j])
    {
      assert out[j] == sorted[j - 1] && sorted[j - 1] in sorted;
      if i > 0 {
        assert out[i] == sorted[i - 1];
      }
    }
  }

  function Insert(r: Record, sorted: seq<Record>): (out: seq<Record>)
    requires SortedByModel(sorted)
    ensures SortedByModel(out)
    ensures multiset(out) == multiset(sorted) + multiset{r}
  {
    if sorted == [] then [r]
    else if ModelLe(r, sorted[0]) then
      assert forall x :: x in sorted ==> ModelLe(r, x) by {
        forall x | x in sorted ensures ModelLe(r, x) {
          var j :| 0 <= j < |sorted| && sorted[j] == x;
          if j > 0 {
            ModelLeTransitive(r, sorted[0], sorted[j]);
          }
        }
      }
      PrependSorted(r, sorted);
      [r] + sorted
    else
      var tail := sorted[1..];
      var rest := Insert(r, tail);
      ModelLeTotal(r, sorted[0]);
      assert forall x :: x in rest ==> ModelLe(sorted[0], x) by {
        forall x | x in rest ensures ModelLe(sorted[0], x) {
          assert x in multiset(rest);
          if x != r {
            assert x in multiset(tail);
            var j :| 0 <= j < |tail| && tail[j] == x;
            assert x == sorted[j + 1];
          }
        }
      }
      PrependSorted(sorted[0], rest);
      assert sorted == [sorted[0]] + tail;
      [sorted[0]] + rest
  }

  /**
   * A sort by `model`. pandas' default quicksort is not stable, so the
   * source fixes only that the rows come out in non-decreasing model order
   * and are a permutation of the input; this insertion sort is one such order.
   */
  function SortByModel(rows: seq<Record>): (out: seq<Record>)
    ensures SortedByModel(out)
    ensures multiset(out) == multiset(rows)
  {
    if rows == [] then []
    else
      assert rows == [rows[0]] + rows[1..];
      Insert(rows[0], SortByModel(rows[1..]))
  }

  /** Sorting rows that are already in model order leaves them in place. */
  lemma {:induction false} SortSortedUnchanged(rows: seq<Record>)
    requires SortedByModel(rows)
    ensures SortByModel(rows) == rows
  {
    if rows != [] {
      SortSortedUnchanged(rows[1..]);
      assert rows == [rows[0]] + rows[1..];
    }
  }

  // ---------------------------------------------------------------------
  // Paths and the save itself
  // ---------------------------------------------------------------------

  /** `Path(dir) / name` for a plain directory name. */
  function JoinPath(dir: string, name: string): string {
    if dir == "" || dir == "." then name
    else if dir[|dir| - 1] == '/' then dir + name
    else dir + "/" + name
  }

  /** The primary file: `output_dir/prefix_DAY.csv`. */
  function PrimaryPath(outputDir: string, prefix: string, day: string): (p: string)
    // the file is named `prefix_DAY.csv` ...
    ensures |p| >= |prefix| + |day| + 5 && p[|p| - (|prefix| + |day| + 5)..] == prefix + "_" + day + ".csv"
    // ... and sits in the output directory
    ensures outputDir != "" && outputDir != "." ==> |p| > |outputDir| && p[..|outputDir|] == outputDir
    // ... joined by exactly one separator, with nothing between directory and name
    ensures outputDir == "" || outputDir == "." ==> p == prefix + "_" + day + ".csv"
    ensures outputDir != "" && outputDir != "." ==>
      p == (if outputDir[|outputDir| - 1] == '/' then outputDir else outputDir + "/") + prefix + "_" + day + ".csv"
  {
    JoinPath(outputDir, prefix + "_" + day + ".csv")
  }

  /** The backup file: `backups/prefix_DAY_backup.csv`. */
  function BackupPath(prefix: string, day: string): (p: string)
    ensures |p| == |prefix| + |day| + 20
    ensures p[..8] == "backups/" && p[8..8 + |prefix| + |day| + 1] == prefix + "_" + day
    ensures p[|p| - 11..] == "_backup.csv"
  {
    "backups/" + prefix + "_" + day + "_backup.csv"
  }

  /**
   * Days written the same way (`%Y-%m-%d`) name different files: a save
   * only ever replaces the files of its own day.
   */
  lemma DaysGetOwnFiles(outputDir: string, prefix: string, day1: string, day2: string)
    requires |day1| == |day2| && day1 != day2
    ensures PrimaryPath(outputDir, prefix, day1) != PrimaryPath(outputDir, prefix, day2)
    ensures BackupPath(prefix, day1) != BackupPath(prefix, day2)
  {
    var k :| 0 <= k < |day1| && day1[k] != day2[k];
    var at := |prefix| + 1 + k;
    var file1, file2 := prefix + "_" + day1 + ".csv", prefix + "_" + day2 + ".csv";
    assert file1[at] != file2[at];
    var p1, p2 := PrimaryPath(outputDir, prefix, day1), PrimaryPath(outputDir, prefix, day2);
    assert p1[|p1| - |file1| + at] == file1[at];
    assert p2[|p2| - |file2| + at] == file2[at];
    var b1, b2 := BackupPath(prefix, day1), BackupPath(prefix, day2);
    assert b1[8 + at] == (prefix + "_" + day1)[at];
    assert b2[8 + at] == (prefix + "_" + day2)[at];
  }

  /** The key columns no record of the batch carries: pandas' KeyError. */
  function MissingKeyColumns(rows: seq<Record>): set<string> {
    set c | c in KeyColumns && forall r :: r in rows ==> c !in r
  }

  datatype SaveResult =
    | NoData                      // warning "No data to save.", returns None, writes nothing
    | KeyError(missing: set<string>)  // drop_duplicates raised
    | Saved(path: string, rows: seq<Record>, backup: Option<string>)

  /**
   * `save_to_csv(data, prefix, output_dir)` on day `day` (the `datetime.now()`
   * it reads). `Saved` names the primary path it returns, the rows both
   * files receive and the backup path when `backupEnabled`.
   */
  function SaveToCsv(data: seq<Record>, prefix: string, outputDir: string, day: string, backupEnabled: bool): (r: SaveResult)
    ensures r.NoData? <==> data == []
    ensures r.KeyError? <==> data != [] && exists c :: c in KeyColumns && forall x :: x in data ==> c !in x
    ensures r.Saved? ==>
      && DistinctKeys(r.rows)
      && SortedByModel(r.rows)
      && multiset(r.rows) == multiset(DropDuplicates(data))
      && (forall x :: x in r.rows ==> x in data)
      && (forall i :: 0 <= i < |data| ==> DedupKey(data[i]) in Keys(r.rows))
      && r.path == PrimaryPath(outputDir, prefix, day)
      && r.backup == (if backupEnabled then Some(BackupPath(prefix, day)) else None)
  {
    if data == [] then NoData
    else if MissingKeyColumns(data) != {} then KeyError(MissingKeyColumns(data))
    else
      var kept := DropDuplicates(data);
      var rows := SortByModel(kept);
      assert forall c :: c in KeyColumns ==> c !in MissingKeyColumns(data);
      DedupMembers(data);
      DedupCovers(data);
      DedupDistinct(data);
      PermutationKeys(kept, rows);
      Saved(PrimaryPath(outputDir, prefix, day), rows,
            if backupEnabled then Some(BackupPath(prefix, day)) else None)
  }

  /** A permutation keeps the members, the keys and their distinctness. */
  lemma PermutationKeys(a: seq<Record>, b: seq<Record>)
    requires multiset(a) == multiset(b)
    ensures forall x :: x in b <==> x in a
    ensures forall k :: k in Keys(a) ==> k in Keys(b)
    ensures DistinctKeys(a) ==> DistinctKeys(b)
  {
    assert forall x :: x in b <==> x in multiset(a);
    forall k | k in Keys(a) ensures k in Keys(b) {
      var i :| 0 <= i < |a| && Keys(a)[i] == k;
      assert a[i] in multiset(b);
      var j :| 0 <= j < |b| && b[j] == a[i];
      assert Keys(b)[j] == k;
    }
    if DistinctKeys(a) {
      DistinctOnce(a);
      forall i, j | 0 <= i < j < |b| ensures DedupKey(b[i]) != DedupKey(b[j]) {
        TwoPositions(b, i, j);
        assert b[i] in multiset(a) && b[j] in multiset(a);
        var p :| 0 <= p < |a| && a[p] == b[i];
        var q :| 0 <= q < |a| && a[q] == b[j];
        if p < q {
          assert DedupKey(a[p]) != DedupKey(a[q]);
        } else if q < p {
          assert DedupKey(a[q]) != DedupKey(a[p]);
        }
      }
    }
  }

  /** Two positions holding the same value make it occur twice. */
  lemma TwoPositions(b: seq<Record>, i: int, j: int)
    requires 0 <= i < j < |b|
    ensures b[i] == b[j] ==> multiset(b)[b[i]] >= 2
  {
    assert b == b[..j] + b[j..];
    assert b[i] in b[..j];
    assert b[j] in b[j..];
  }

  /** With distinct keys every row occurs once. */
  lemma {:induction false} DistinctOnce(a: seq<Record>)
    requires DistinctKeys(a)
    ensures forall x :: multiset(a)[x] <= 1
  {
    if a != [] {
      var init := a[..|a| - 1];
      var last := a[|a| - 1];
      assert DistinctKeys(init) by {
        forall i, j | 0 <= i < j < |init| ensures DedupKey(init[i]) != DedupKey(init[j]) {
          assert init[i] == a[i] && init[j] == a[j];
        }
      }
      DistinctOnce(init);
      assert a == init + [last];
      forall m | 0 <= m < |init| ensures init[m] != last {
        assert init[m] == a[m];
      }
      assert last !in init;
    }
  }

  /**
   * Saving is idempotent: saving the rows a save wrote, under the same
   * prefix and day, writes exactly those rows to the same paths again.
   */
  lemma ResaveIsFixpoint(data: seq<Record>, prefix: string, outputDir: string, day: string, backupEnabled: bool)
    requires SaveToCsv(data, prefix, outputDir, day, backupEnabled).Saved?
    ensures var first := SaveToCsv(data, prefix, outputDir, day, backupEnabled);
            SaveToCsv(first.rows, prefix, outputDir, day, backupEnabled) == first
  {
    var rows := SaveToCsv(data, prefix, outputDir, day, backupEnabled).rows;
    SameMissingColumns(data, rows);
    DistinctUnchanged(rows);
    SortSortedUnchanged(rows);
  }

  /** Saving a batch yields the same file as saving its deduplicated batch. */
  lemma SaveDeduplicatedFirst(data: seq<Record>, prefix: string, outputDir: string, day: string, backupEnabled: bool)
    ensures SaveToCsv(DropDuplicates(data), prefix, outputDir, day, backupEnabled)
         == SaveToCsv(data, prefix, outputDir, day, backupEnabled)
  {
    var kept := DropDuplicates(data);
    if data != [] {
      DedupMembers(data);
      DedupCovers(data);
      DropDuplicatesIdempotent(data);
      assert kept != [] by {
        assert DedupKey(data[0]) in Keys(kept);
      }
      SameMissingColumns(data, kept);
    }
  }

  /** Two batches with the same keys, one drawn from the other, lack the same key columns. */
  lemma SameMissingColumns(a: seq<Record>, b: seq<Record>)
    requires forall i :: 0 <= i < |a| ==> DedupKey(a[i]) in Keys(b)
    requires forall x :: x in b ==> x in a
    ensures MissingKeyColumns(a) == MissingKeyColumns(b)
  {
    forall c | c in KeyColumns
      ensures c in MissingKeyColumns(a) <==> c in MissingKeyColumns(b)
    {
      if c !in MissingKeyColumns(a) {
        var x :| x in a && c in x;
        var i :| 0 <= i < |a| && a[i] == x;
        var j :| 0 <= j < |b| && Keys(b)[j] == DedupKey(a[i]);
        assert Cell(b[j], c) == Cell(x, c);
      }
    }
  }

  /** The worked example's listing. */
  function Peugeot(): Record {
    map["model" := "Peugeot 206", "price" := "150000000", "price_status" := "fixed",
        "year" := "1398", "mileage" := "50,000", "source_url" := "https://bama.ir/a",
        "scrape_date" := "2025-11-10"]
  }

  /** One listing carrying every key column is written as one row, to the primary file and its backup. */
  lemma SaveSingle(r: Record, prefix: string, outputDir: string, day: string)
    requires forall c :: c in KeyColumns ==> c in r
    ensures SaveToCsv([r], prefix, outputDir, day, true)
         == Saved(PrimaryPath(outputDir, prefix, day), [r], Some(BackupPath(prefix, day)))
  {
    assert MissingKeyColumns([r]) == {} by {
      forall c | c in KeyColumns ensures c !in MissingKeyColumns([r]) {
        assert r in [r];
      }
    }
    assert DropDuplicates([r]) == [r] by {
      assert [r][..0] == [];
      assert Keys([]) == [];
    }
    assert SortByModel([r]) == [r] by {
      assert [r][1..] == [];
    }
  }

  lemma PeugeotHasKeyColumns()
    ensures forall c :: c in KeyColumns ==> c in Peugeot()
  {
    var p := Peugeot();
    assert "model" in p && "year" in p && "mileage" in p && "price" in p && "source_url" in p;
  }

  /** The worked example: one Peugeot 206 listing saved under prefix "bama" on 2025-11-10. */
  lemma PeugeotExample()
    ensures SaveToCsv([Peugeot()], "bama", "output", "2025-11-10", true)
         == Saved(PrimaryPath("output", "bama", "2025-11-10"), [Peugeot()], Some(BackupPath("bama", "2025-11-10")))
  {
    PeugeotHasKeyColumns();
    SaveSingle(Peugeot(), "bama", "output", "2025-11-10");
  }

  /** The worked example's primary file name. */
  lemma ExamplePrimaryPath()
    ensures PrimaryPath("output", "bama", "2025-11-10") == "output/bama_2025-11-10.csv"
  {
  }

  /** The worked example's backup file name. */
  lemma ExampleBackupPath()
    ensures BackupPath("bama", "2025-11-10") == "backups/bama_2025-11-10_backup.csv"
  {
  }
}

=== FILE: records.dfy ===
/**
 * The listing record as the scrapers build it: a Python dict from column
 * name to text. Bama records carry eight keys; Divar records carry five.
 */
module Records {

  type Record = map<string, string>

  /** The negotiable-price sentinel, "tavafoghi" written in Persian letters. */
  const Negotiable: string := "\U{062A}\U{0648}\U{0627}\U{0641}\U{0642}\U{06CC}"

  const StatusFixed: string := "fixed"
  const StatusNegotiable: string := "negotiable"

  /** The eight keys of a bama.ir record. */
  const BamaColumns: set<string> :=
    {"model", "year", "mileage", "description", "price", "price_status", "source_url", "scrape_date"}

  /** The five keys of a divar.ir record. */
  const DivarColumns: set<string> := {"model", "mileage", "price", "source_url", "scrape_date"}

  /** Where `save_to_csv` writes unless told otherwise. */
  const OutputDir: string := "output"

  /** The configured backup switch; a second copy goes to `backups/` when set. */
  const BackupEnabled: bool := true
}

=== FILE: retry.dfy ===
/**
 * The `retry(max_attempts, delay)` decorator: calls the wrapped coroutine
 * up to `max_attempts` times, returns the first result that is not an
 * exception, sleeps `delay * k` after a failed attempt k that is not the
 * last, and re-raises the last exception. Delays are in milliseconds; the
 * wrapped call's k-th outcome is the input `call(k)`.
 */
module Retrying {
  import opened Wrappers

  /** What one call of the wrapped coroutine did. */
  datatype Attempt<T, E> = Returned(value: T) | Raised(error: E)

  /** What the wrapper did. */
  datatype RetryResult<T, E> =
    | Succeeded(value: T)
    | Reraised(error: E)
    /** `raise last_exc` with `last_exc` still `None` (no attempt made): Python raises TypeError. */
    | RaisedNone

  /** The sleeps after failed attempts 1..n: `delay*1, ..., delay*n`. */
  function Backoff(delay: int, n: nat): (waits: seq<int>)
    ensures |waits| == n
    ensures forall k :: 0 <= k < n ==> waits[k] == delay * (k + 1)
  {
    seq(n, k requires 0 <= k < n => delay * (k + 1))
  }

  /** A positive base delay makes every wait longer than the one before. */
  lemma BackoffIncreasing(delay: int, n: nat)
    requires delay > 0
    ensures forall i, j :: 0 <= i < j < n ==> Backoff(delay, n)[i] < Backoff(delay, n)[j]
  {
    var w := Backoff(delay, n);
    forall i, j | 0 <= i < j < n ensures w[i] < w[j] {
      assert w[j] == w[i] + delay * (j - i);
    }
  }

  method Retry<T, E>(maxAttempts: int, delay: int, call: nat -> Attempt<T, E>)
    returns (calls: nat, waits: seq<int>, result: RetryResult<T, E>)
    // never more calls than allowed, and at least one when one is allowed
    ensures maxAttempts < 1 ==> calls == 0 && waits == [] && result == RaisedNone
    ensures maxAttempts >= 1 ==> 1 <= calls <= maxAttempts
    // every call before the last one failed
    ensures forall k :: 1 <= k < calls ==> call(k).Raised?
    // the first success is returned, with no further call
    ensures calls >= 1 && call(calls).Returned? ==> result == Succeeded(call(calls).value)
    // otherwise every allowed attempt was made and the last exception is re-raised
    ensures calls >= 1 && call(calls).Raised? ==> calls == maxAttempts && result == Reraised(call(calls).error)
    // a wait after each failed attempt except the last one
    ensures waits == Backoff(delay, if calls == 0 then 0 else calls - 1)
  {
    calls, waits := 0, [];
    var lastExc: Option<E> := None;
    var attempt := 1;
    while attempt <= maxAttempts
      invariant 1 <= attempt
      invariant attempt <= (if maxAttempts >= 1 then maxAttempts + 1 else 1)
      invariant calls == attempt - 1
      invariant forall k :: 1 <= k < attempt ==> call(k).Raised?
      invariant lastExc == if attempt == 1 then None else Some(call(attempt - 1).error)
      invariant waits == Backoff(delay, if attempt <= maxAttempts || calls == 0 then attempt - 1 else calls - 1)
    {
      calls := calls + 1;
      var outcome := call(attempt);
      if outcome.Returned? {
        return calls, waits, Succeeded(outcome.value);
      }
      lastExc := Some(outcome.error);
      if attempt < maxAttempts {
        waits := waits + [delay * attempt];
      }
      attempt := attempt + 1;
    }
    match lastExc
    case None => result := RaisedNone;
    case Some(e) => result := Reraised(e);
  }

  /**
   * Three attempts allowed, the first two fail and the third succeeds: the
   * call succeeds after exactly three calls, having waited `delay` and then
   * `2 * delay`.
   */
  method TwoFailuresThenSuccess<T, E>(delay: int, call: nat -> Attempt<T, E>)
    returns (calls: nat, waits: seq<int>, result: RetryResult<T, E>)
    requires call(1).Raised? && call(2).Raised? && call(3).Returned?
    ensures calls == 3 && result == Succeeded(call(3).value)
    ensures waits == [delay, 2 * delay]
  {
    calls, waits, result := Retry(3, delay, call);
    assert Backoff(delay, 2) == [delay, 2 * delay];
  }
}

=== FILE: session.dfy ===
/**
 * `launch_browser_with_fallback`: tries each browser engine of
 * BROWSER_FALLBACK in order, checks the loaded page for anti-bot markers
 * and returns the first page that passes; a failing engine's page, context
 * and browser are released before the next engine is tried.
 *
 * What Playwright does for an engine is an input (`EngineScript`): the step
 * at which it raised, or the title and body text it loaded, and which
 * `close()` calls raise. Ghost sets record the handles created and released.
 */
module Session {
  import opened Wrappers
  import opened Text

  /** CLOUDFLARE_TITLE and ANTI_BOT_PHRASES. */
  datatype BlockRules = BlockRules(cloudflareTitle: string, phrases: seq<string>)

  /** The shipped configuration. */
  const DefaultEngines: seq<string> := ["chromium", "firefox"]
  const DefaultRules: BlockRules := BlockRules("Cloudflare", ["just a moment", "checking your browser"])

  // ---------------------------------------------------------------------
  // The anti-bot check
  // ---------------------------------------------------------------------

  /** Some marker of `[CLOUDFLARE_TITLE.lower()] + ANTI_BOT_PHRASES` occurs in the lower-cased title. */
  predicate TitleBlocked(title: string, rules: BlockRules)
    // the lower-cased Cloudflare title, or any phrase as written
    ensures TitleBlocked(title, rules) <==>
      Contains(Lower(title), Lower(rules.cloudflareTitle)) || exists p :: p in rules.phrases && Contains(Lower(title), p)
  {
    assert Lower(rules.cloudflareTitle) in [Lower(rules.cloudflareTitle)] + rules.phrases;
    exists p :: p in [Lower(rules.cloudflareTitle)] + rules.phrases && Contains(Lower(title), p)
  }

  /** Some phrase of ANTI_BOT_PHRASES occurs in the lower-cased body (`None` reads as ""). */
  predicate BodyBlocked(body: Option<string>, rules: BlockRules)
    // a page without a body text is blocked only by an empty phrase
    ensures body.None? ==> (BodyBlocked(body, rules) <==> "" in rules.phrases)
  {
    assert OccursAt("", "", 0);
    exists p :: p in rules.phrases && Contains(Lower(body.GetOr("")), p)
  }

  /** The anti-bot verdict on a loaded page. */
  predicate IsBlocked(title: string, body: Option<string>, rules: BlockRules)
    // a page passes exactly when no marker occurs in its lower-cased title
    // and no phrase in its lower-cased body
    ensures !IsBlocked(title, body, rules) <==>
      && !Contains(Lower(title), Lower(rules.cloudflareTitle))
      && forall p :: p in rules.phrases ==> !Contains(Lower(title), p) && !Contains(Lower(body.GetOr("")), p)
  {
    TitleBlocked(title, rules) || BodyBlocked(body, rules)
  }

  /** The check ignores the case of the page's title. */
  lemma TitleCheckIgnoresCase(title: string, rules: BlockRules)
    ensures TitleBlocked(Lower(title), rules) == TitleBlocked(title, rules)
  {
    LowerIdempotent(title);
  }

  /**
   * The phrases are not lower-cased: adding a phrase with an ASCII capital
   * letter changes no verdict.
   */
  lemma {:induction false} CapitalisedPhraseIgnored(title: string, body: Option<string>, rules: BlockRules, p: string, k: nat)
    requires k < |p| && IsAsciiUpper(p[k])
    ensures IsBlocked(title, body, BlockRules(rules.cloudflareTitle, rules.phrases + [p]))
        == IsBlocked(title, body, rules)
  {
    LowerMissesUppercase(title, p, k);
    LowerMissesUppercase(body.GetOr(""), p, k);
    var more := BlockRules(rules.cloudflareTitle, rules.phrases + [p]);
    assert [Lower(more.cloudflareTitle)] + more.phrases == [Lower(rules.cloudflareTitle)] + rules.phrases + [p];
  }

  /** The Cloudflare marker is looked for in the title only: a body naming Cloudflare passes. */
  lemma CloudflareOnlyInTitle()
    ensures TitleBlocked("Cloudflare", DefaultRules)
    ensures !IsBlocked("ok", Some("Cloudflare"), DefaultRules)
  {
    var marker := Lower(DefaultRules.cloudflareTitle);
    assert marker == Lower("Cloudflare");
    assert OccursAt(Lower("Cloudflare"), marker, 0);
    assert marker in [marker] + DefaultRules.phrases;
  }

  // ---------------------------------------------------------------------
  // One engine's attempt
  // ---------------------------------------------------------------------

  datatype HandleKind = BrowserHandle | ContextHandle | PageHandle

  /** A Playwright object, identified by the engine position that created it. */
  datatype Handle = Handle(engine: nat, kind: HandleKind)

  /** The step that raised: `launch`, `new_context`, `new_page`, or a later one (init script, pause, `goto`, title, body). */
  datatype Stage = AtLaunch | AtNewContext | AtNewPage | AfterNewPage

  datatype Navigation = RaisesAt(stage: Stage) | Loaded(title: string, body: Option<string>)

  /** What trying one engine of BROWSER_FALLBACK does; `closeRaises` are the handles whose `close()` raises. */
  datatype EngineScript = EngineScript(name: string, nav: Navigation, closeRaises: set<HandleKind>)

  /** The handles an attempt created before it raised or finished, in the order the handler closes them. */
  function CloseOrder(nav: Navigation): seq<HandleKind> {
    match nav
    case RaisesAt(AtLaunch) => []
    case RaisesAt(AtNewContext) => [BrowserHandle]
    case RaisesAt(AtNewPage) => [ContextHandle, BrowserHandle]
    case _ => [PageHandle, ContextHandle, BrowserHandle]
  }

  /** Position in the handler's closing order: page, then context, then browser. */
  function Rank(k: HandleKind): nat {
    match k
    case PageHandle => 0
    case ContextHandle => 1
    case BrowserHandle => 2
  }

  /** The engine raised or its page was blocked. */
  predicate Fails(s: EngineScript, rules: BlockRules) {
    s.nav.RaisesAt? || IsBlocked(s.nav.title, s.nav.body, rules)
  }

  /** The first close in the handler that raises, if any. */
  function FirstFailingClose(s: EngineScript): (k: Option<HandleKind>)
    ensures k.Some? ==> k.value in CloseOrder(s.nav) && k.value in s.closeRaises
    ensures k.Some? ==> forall h :: h in CloseOrder(s.nav) && Rank(h) < Rank(k.value) ==> h !in s.closeRaises
    ensures k.None? ==> forall h :: h in CloseOrder(s.nav) ==> h !in s.closeRaises
  {
    var order := CloseOrder(s.nav);
    if PageHandle in order && PageHandle in s.closeRaises then Some(PageHandle)
    else if ContextHandle in order && ContextHandle in s.closeRaises then Some(ContextHandle)
    else if BrowserHandle in order && BrowserHandle in s.closeRaises then Some(BrowserHandle)
    else None
  }

  /** The engine failed and everything it created was released. */
  predicate CleanFailure(s: EngineScript, rules: BlockRules) {
    Fails(s, rules) && FirstFailingClose(s).None?
  }

  // ---------------------------------------------------------------------
  // The fallback loop
  // ---------------------------------------------------------------------

  datatype Acquisition =
    | Ready(engine: nat)                          // (page, context) of this engine returned
    | NoSession                                   // (None, None) after "ALL BROWSERS FAILED"
    | CloseEscaped(engine: nat, kind: HandleKind) // this close raised inside the handler and left the function

  /** The outcome of trying the engines from position `i` on. */
  function AcquireFrom(scripts: seq<EngineScript>, rules: BlockRules, i: nat): Acquisition
    requires i <= |scripts|
    decreases |scripts| - i
  {
    if i == |scripts| then NoSession
    else if !Fails(scripts[i], rules) then Ready(i)
    else match FirstFailingClose(scripts[i])
      case Some(k) => CloseEscaped(i, k)
      case None => AcquireFrom(scripts, rules, i + 1)
  }

  /** `launch_browser_with_fallback` over the whole engine list. */
  function Acquire(scripts: seq<EngineScript>, rules: BlockRules): (a: Acquisition)
    // the session's engine passed, and every engine before it failed cleanly
    ensures a.Ready? ==>
      && a.engine < |scripts| && !Fails(scripts[a.engine], rules)
      && forall j :: 0 <= j < a.engine ==> CleanFailure(scripts[j], rules)
    // an escaping close is the first raising close of an engine that failed
    ensures a.CloseEscaped? ==>
      && a.engine < |scripts| && Fails(scripts[a.engine], rules)
      && FirstFailingClose(scripts[a.engine]) == Some(a.kind)
    // `(None, None)` only after every engine failed cleanly
    ensures a.NoSession? ==> forall j :: 0 <= j < |scripts| ==> CleanFailure(scripts[j], rules)
  {
    var a := AcquireFrom(scripts, rules, 0);
    match a
    case Ready(e) => ReadyFrom(scripts, rules, 0, e); a
    case CloseEscaped(e, k) => EscapedFrom(scripts, rules, 0, e, k); a
    case NoSession => NoSessionFrom(scripts, rules, 0); a
  }

  /**
   * The engines are tried in order. From engine `i` on, engine `e` gives
   * the session exactly when it is the first that navigates unblocked and
   * every engine before it failed and was released cleanly.
   */
  lemma {:induction false} ReadyFrom(scripts: seq<EngineScript>, rules: BlockRules, i: nat, e: nat)
    requires i <= |scripts|
    ensures AcquireFrom(scripts, rules, i) == Ready(e) <==>
      i <= e < |scripts| && !Fails(scripts[e], rules)
      && forall j :: i <= j < e ==> CleanFailure(scripts[j], rules)
    decreases |scripts| - i
  {
    if i < |scripts| && Fails(scripts[i], rules) && FirstFailingClose(scripts[i]).None? {
      ReadyFrom(scripts, rules, i + 1, e);
    }
  }

  /** A close that raises ends the search: the first engine whose clean-up raised, after clean failures. */
  lemma {:induction false} EscapedFrom(scripts: seq<EngineScript>, rules: BlockRules, i: nat, e: nat, k: HandleKind)
    requires i <= |scripts|
    ensures AcquireFrom(scripts, rules, i) == CloseEscaped(e, k) <==>
      i <= e < |scripts| && Fails(scripts[e], rules) && FirstFailingClose(scripts[e]) == Some(k)
      && forall j :: i <= j < e ==> CleanFailure(scripts[j], rules)
    decreases |scripts| - i
  {
    if i < |scripts| {
      if !Fails(scripts[i], rules) || FirstFailingClose(scripts[i]).Some? {
        // engine i settles the outcome; a later e would need it to fail cleanly
        assert e > i ==> !CleanFailure(scripts[i], rules);
      } else {
        EscapedFrom(scripts, rules, i + 1, e, k);
      }
    }
  }

  /** No session exactly when every engine from `i` on failed and was released cleanly. */
  lemma {:induction false} NoSessionFrom(scripts: seq<EngineScript>, rules: BlockRules, i: nat)
    requires i <= |scripts|
    ensures AcquireFrom(scripts, rules, i) == NoSession <==>
      forall j :: i <= j < |scripts| ==> CleanFailure(scripts[j], rules)
    decreases |scripts| - i
  {
    if i < |scripts| && Fails(scripts[i], rules) && FirstFailingClose(scripts[i]).None? {
      NoSessionFrom(scripts, rules, i + 1);
    }
  }

  /** The fallback rule over the whole engine list. */
  lemma AcquireMeaning(scripts: seq<EngineScript>, rules: BlockRules)
    ensures forall e: nat :: Acquire(scripts, rules) == Ready(e) <==>
      e < |scripts| && !Fails(scripts[e], rules) && forall j :: 0 <= j < e ==> CleanFailure(scripts[j], rules)
    ensures forall e: nat, k :: Acquire(scripts, rules) == CloseEscaped(e, k) <==>
      e < |scripts| && Fails(scripts[e], rules) && FirstFailingClose(scripts[e]) == Some(k)
      && forall j :: 0 <= j < e ==> CleanFailure(scripts[j], rules)
    ensures Acquire(scripts, rules) == NoSession <==>
      forall j :: 0 <= j < |scripts| ==> CleanFailure(scripts[j], rules)
  {
    forall e: nat
      ensures Acquire(scripts, rules) == Ready(e) <==>
        e < |scripts| && !Fails(scripts[e], rules) && forall j :: 0 <= j < e ==> CleanFailure(scripts[j], rules)
    {
      ReadyFrom(scripts, rules, 0, e);
    }
    forall e: nat, k
      ensures Acquire(scripts, rules) == CloseEscaped(e, k) <==>
        e < |scripts| && Fails(scripts[e], rules) && FirstFailingClose(scripts[e]) == Some(k)
        && forall j :: 0 <= j < e ==> CleanFailure(scripts[j], rules)
    {
      EscapedFrom(scripts, rules, 0, e, k);
    }
    NoSessionFrom(scripts, rules, 0);
  }

  /**
   * A first engine whose page body shows an anti-bot phrase is released and
   * the second engine is tried, without raising to the caller.
   */
  lemma FallbackAfterBlockedBody(x: EngineScript, y: EngineScript, rules: BlockRules)
    requires x.nav.Loaded? && BodyBlocked(x.nav.body, rules) && x.closeRaises == {}
    requires y.nav.Loaded? && !IsBlocked(y.nav.title, y.nav.body, rules)
    ensures Acquire([x, y], rules) == Ready(1)
  {
    assert Fails(x, rules) && FirstFailingClose(x).None?;
    assert AcquireFrom([x, y], rules, 1) == Ready(1);
  }

  /** The handles of engine `i` the handler had not released when closing `k` raised. */
  function Unclosed(i: nat, nav: Navigation, k: HandleKind): set<Handle> {
    set h | h in CloseOrder(nav) && Rank(h) >= Rank(k) :: Handle(i, h)
  }

  /** What the handler did with one engine. */
  datatype EngineOutcome = Passed | Released | Escaped(kind: HandleKind)

  function Verdict(s: EngineScript, rules: BlockRules): EngineOutcome {
    if !Fails(s, rules) then Passed
    else match FirstFailingClose(s)
      case Some(k) => Escaped(k)
      case None => Released
  }

  /** The handles of engine `i` an attempt creates. */
  function Created(i: nat, nav: Navigation): set<Handle> {
    set h | h in CloseOrder(nav) :: Handle(i, h)
  }

  /** The handles the engines before position `n` created. */
  function Tried(scripts: seq<EngineScript>, n: nat): set<Handle>
    requires n <= |scripts|
  {
    if n == 0 then {} else Tried(scripts, n - 1) + Created(n - 1, scripts[n - 1].nav)
  }

  /** A handle was created by the first `n` engines exactly when its engine was reached and created it. */
  lemma {:induction false} TriedMembers(scripts: seq<EngineScript>, n: nat, h: Handle)
    requires n <= |scripts|
    ensures h in Tried(scripts, n) <==> h.engine < n && h.kind in CloseOrder(scripts[h.engine].nav)
  {
    if n > 0 {
      TriedMembers(scripts, n - 1, h);
    }
  }

  /**
   * One pass of the loop body for engine `i`: launch, new context, new
   * page, navigation and the anti-bot check, then, on failure, the
   * handler's closes.
   */
  method TryEngine(s: EngineScript, i: nat, rules: BlockRules)
    returns (outcome: EngineOutcome, ghost created: set<Handle>, ghost released: set<Handle>)
    ensures outcome == Verdict(s, rules)
    ensures created == Created(i, s.nav) && released <= created
    // a page that passes keeps its page, context and browser open
    ensures outcome.Passed? ==>
      released == {} && created == {Handle(i, BrowserHandle), Handle(i, ContextHandle), Handle(i, PageHandle)}
    // a clean failure releases everything it created
    ensures outcome.Released? ==> released == created
    // a raising close leaves it and the handles after it open
    ensures outcome.Escaped? ==> created - released == Unclosed(i, s.nav, outcome.kind)
  {
    created, released := {}, {};
    var browser, context, page := false, false, false;
    var failed := false;
    if s.nav == RaisesAt(AtLaunch) {
      failed := true;
    } else {
      browser := true;
      created := created + {Handle(i, BrowserHandle)};
      if s.nav == RaisesAt(AtNewContext) {
        failed := true;
      } else {
        context := true;
        created := created + {Handle(i, ContextHandle)};
        if s.nav == RaisesAt(AtNewPage) {
          failed := true;
        } else {
          page := true;
          created := created + {Handle(i, PageHandle)};
          if s.nav.RaisesAt? {
            failed := true;  // init script, pause, goto, title or body raised
          } else if TitleBlocked(s.nav.title, rules) {
            failed := true;  // "Anti-bot detected (title)"
          } else if BodyBlocked(s.nav.body, rules) {
            failed := true;  // "Anti-bot detected (body)"
          }
        }
      }
    }
    assert created == Created(i, s.nav);
    if !failed {
      return Passed, created, released;
    }
    // the handler closes page, context and browser, in that order; a raising close escapes
    if page {
      if PageHandle in s.closeRaises {
        return Escaped(PageHandle), created, released;
      }
      released := released + {Handle(i, PageHandle)};
    }
    if context {
      if ContextHandle in s.closeRaises {
        return Escaped(ContextHandle), created, released;
      }
      released := released + {Handle(i, ContextHandle)};
    }
    if browser {
      if BrowserHandle in s.closeRaises {
        return Escaped(BrowserHandle), created, released;
      }
      released := released + {Handle(i, BrowserHandle)};
    }
    return Released, created, released;
  }

  method AcquireSession(scripts: seq<EngineScript>, rules: BlockRules)
    returns (r: Acquisition, ghost created: set<Handle>, ghost released: set<Handle>)
    ensures r == Acquire(scripts, rules)
    ensures released <= created
    ensures forall h :: h in created ==> h.engine < |scripts|
    // the returned page and context, and their browser, stay open; every other handle was released
    ensures r.Ready? ==>
      created - released == {Handle(r.engine, BrowserHandle), Handle(r.engine, ContextHandle), Handle(r.engine, PageHandle)}
    // the handles created are exactly those of the engines tried
    ensures r.NoSession? ==> created == Tried(scripts, |scripts|)
    ensures r.Ready? || r.CloseEscaped? ==> r.engine < |scripts| && created == Tried(scripts, r.engine + 1)
    ensures r.NoSession? ==> created == released
    // a raising close leaves it and the handles after it open
    ensures r.CloseEscaped? ==> r.engine < |scripts| && created - released == Unclosed(r.engine, scripts[r.engine].nav, r.kind)
  {
    created, released := {}, {};
    var i := 0;
    while i < |scripts|
      invariant 0 <= i <= |scripts|
      invariant AcquireFrom(scripts, rules, i) == Acquire(scripts, rules)
      invariant created == released == Tried(scripts, i)
      invariant forall h :: h in created ==> h.engine < i
    {
      var outcome;
      ghost var more: set<Handle>, freed: set<Handle>;
      outcome, more, freed := TryEngine(scripts[i], i, rules);
      assert forall h :: h in more ==> h.engine == i;
      assert (created + more) - (released + freed) == more - freed;
      created, released := created + more, released + freed;
      match outcome {
        case Passed =>
          assert AcquireFrom(scripts, rules, i) == Ready(i);
          return Ready(i), created, released;
        case Escaped(k) =>
          assert AcquireFrom(scripts, rules, i) == CloseEscaped(i, k);
          return CloseEscaped(i, k), created, released;
        case Released =>
          assert AcquireFrom(scripts, rules, i) == AcquireFrom(scripts, rules, i + 1);
      }
      i := i + 1;
    }
    return NoSession, created, released;
  }
}

=== FILE: text.dfy ===
/**
 * String helpers shared by the scrapers: character classes, stripping,
 * filtering, lower-casing, substring search and ordering.
 * Strings are sequences of Unicode code points.
 */
module Text {

  // ---------------------------------------------------------------------
  // Character classes
  // ---------------------------------------------------------------------

  /** Python's `str.isspace`: exactly the code points it accepts. */
  predicate IsPySpace(c: char) {
    ('\t' <= c <= '\r') || ('\U{1C}' <= c <= '\U{1F}') || c == ' ' || c == '\U{85}' || c == '\U{A0}'
    || c == '\U{1680}' || ('\U{2000}' <= c <= '\U{200A}') || c == '\U{2028}' || c == '\U{2029}'
    || c == '\U{202F}' || c == '\U{205F}' || c == '\U{3000}'
  }

  /** The characters JavaScript's `String.prototype.trim` removes (white space and line terminators). */
  predicate IsJsSpace(c: char) {
    ('\t' <= c <= '\r') || c == ' ' || c == '\U{A0}' || c == '\U{1680}' || ('\U{2000}' <= c <= '\U{200A}')
    || c == '\U{2028}' || c == '\U{2029}' || c == '\U{202F}' || c == '\U{205F}' || c == '\U{3000}'
    || c == '\U{FEFF}'
  }

  /** The class of JavaScript's regular-expression `\d`: ASCII 0-9 only. */
  predicate IsAsciiDigit(c: char) {
    '0' <= c <= '9'
  }

  /**
   * Python's `str.isdigit`, restricted to the scripts a Persian listing uses:
   * ASCII digits, Arabic-Indic digits (U+0660..U+0669) and Extended
   * Arabic-Indic (Persian) digits (U+06F0..U+06F9).
   */
  predicate IsDigitPy(c: char) {
    IsAsciiDigit(c) || ('\U{0660}' <= c <= '\U{0669}') || ('\U{06F0}' <= c <= '\U{06F9}')
  }

  predicate IsAsciiUpper(c: char) {
    'A' <= c <= 'Z'
  }

  // ---------------------------------------------------------------------
  // Filtering characters
  // ---------------------------------------------------------------------

  /** `a` occurs in `b` in order, possibly with gaps. */
  predicate IsSubsequence(a: string, b: string)
    decreases |b|
  {
    if a == [] then true
    else if b == [] then false
    else if a[0] == b[0] then IsSubsequence(a[1..], b[1..])
    else IsSubsequence(a, b[1..])
  }

  lemma {:induction false} EmptyIsSubsequence(b: string)
    ensures IsSubsequence([], b)
  {
  }

  /**
   * The characters of `s` that satisfy `keep`, in their order:
   * `"".join(filter(keep, s))`.
   */
  function Keep(s: string, keep: char -> bool): (r: string)
    ensures forall i :: 0 <= i < |r| ==> keep(r[i])
    ensures |r| <= |s|
  {
    if s == [] then []
    else if keep(s[0]) then [s[0]] + Keep(s[1..], keep)
    else Keep(s[1..], keep)
  }

  /** `Keep` retains every kept character as often as it occurs in `s`, and nothing else. */
  lemma {:induction false} KeepCounts(s: string, keep: char -> bool)
    ensures forall c :: multiset(Keep(s, keep))[c] == if keep(c) then multiset(s)[c] else 0
  {
    if s != [] {
      KeepCounts(s[1..], keep);
      assert s == [s[0]] + s[1..];
    }
  }

  /** `Keep` preserves the order of the characters it retains. */
  lemma {:induction false} KeepInOrder(s: string, keep: char -> bool)
    ensures IsSubsequence(Keep(s, keep), s)
  {
    if s != [] {
      KeepInOrder(s[1..], keep);
      var rest := Keep(s[1..], keep);
      if keep(s[0]) {
        assert ([s[0]] + rest)[1..] == rest;
      } else {
        SubsequenceOfTail(rest, s);
      }
    }
  }

  /** A subsequence of the tail of `b` is a subsequence of `b`. */
  lemma {:induction false} SubsequenceOfTail(a: string, b: string)
    requires b != [] && IsSubsequence(a, b[1..])
    ensures IsSubsequence(a, b)
    decreases |b|, |a|
  {
    if a != [] && a[0] == b[0] {
      // a[1..] is a subsequence of b[1..] because a is
      SubsequenceDropHead(a, b[1..]);
    }
  }

  /** Dropping the first character of a subsequence keeps it a subsequence. */
  lemma {:induction false} SubsequenceDropHead(a: string, b: string)
    requires a != [] && IsSubsequence(a, b)
    ensures IsSubsequence(a[1..], b)
    decreases |b|, |a|
  {
    if a[0] == b[0] {
      if a[1..] != [] {
        SubsequenceOfTail(a[1..], b);
      }
    } else {
      SubsequenceDropHead(a, b[1..]);
      if a[1..] != [] {
        SubsequenceOfTail(a[1..], b);
      }
    }
  }

  /** Filtering twice with the same class changes nothing the second time. */
  lemma {:induction false} KeepIdempotent(s: string, keep: char -> bool)
    ensures Keep(Keep(s, keep), keep) == Keep(s, keep)
  {
    KeepAllKept(Keep(s, keep), keep);
  }

  /** A string all of whose characters are kept is its own filter. */
  lemma {:induction false} KeepAllKept(s: string, keep: char -> bool)
    requires forall i :: 0 <= i < |s| ==> keep(s[i])
    ensures Keep(s, keep) == s
  {
    if s != [] {
      KeepAllKept(s[1..], keep);
    }
  }

  /** Filtering distributes over concatenation. */
  lemma {:induction false} KeepAppend(a: string, b: string, keep: char -> bool)
    ensures Keep(a + b, keep) == Keep(a, keep) + Keep(b, keep)
  {
    if a != [] {
      assert (a + b)[0] == a[0];
      assert (a + b)[1..] == a[1..] + b;
      KeepAppend(a[1..], b, keep);
      if keep(a[0]) {
        assert [a[0]] + (Keep(a[1..], keep) + Keep(b, keep)) == ([a[0]] + Keep(a[1..], keep)) + Keep(b, keep);
      }
    } else {
      assert a + b == b;
    }
  }

  /** A string of rejected characters filters to nothing. */
  lemma {:induction false} KeepNoneKept(s: string, keep: char -> bool)
    requires forall i :: 0 <= i < |s| ==> !keep(s[i])
    ensures Keep(s, keep) == []
  {
    if s != [] {
      KeepNoneKept(s[1..], keep);
    }
  }

  // ---------------------------------------------------------------------
  // Stripping
  // ---------------------------------------------------------------------

  /** The first position at or after `i` that is not white space, or `|s|`. */
  function SpaceEnd(s: string, space: char -> bool, i: nat): (n: nat)
    requires i <= |s|
    ensures i <= n <= |s|
    ensures forall k :: i <= k < n ==> space(s[k])
    ensures n < |s| ==> !space(s[n])
    decreases |s| - i
  {
    if i == |s| || !space(s[i]) then i else SpaceEnd(s, space, i + 1)
  }

  /** Where the white space that ends `s[lo..hi]` begins. */
  function SpaceStart(s: string, space: char -> bool, lo: nat, hi: nat): (m: nat)
    requires lo <= hi <= |s|
    ensures lo <= m <= hi
    ensures forall k :: m <= k < hi ==> space(s[k])
    ensures m > lo ==> !space(s[m - 1])
  {
    if hi == lo || !space(s[hi - 1]) then hi else SpaceStart(s, space, lo, hi - 1)
  }

  /** `r` is `s` with the white space before position `i` and after `i + |r|` cut off. */
  predicate CutAt(s: string, r: string, i: int, space: char -> bool) {
    && 0 <= i <= |s| - |r|
    && r == s[i..i + |r|]
    && (forall k :: 0 <= k < i ==> space(s[k]))
    && (forall k :: i + |r| <= k < |s| ==> space(s[k]))
  }

  /**
   * Python's `str.strip()` (with `IsPySpace`) and JavaScript's `trim()`
   * (with `IsJsSpace`): the infix of `s` left after removing the leading
   * and trailing white space.
   */
  function Strip(s: string, space: char -> bool): (r: string)
    ensures exists i :: CutAt(s, r, i, space)
    ensures r != [] ==> !space(r[0]) && !space(r[|r| - 1])
  {
    var lo := SpaceEnd(s, space, 0);
    var hi := SpaceStart(s, space, lo, |s|);
    assert CutAt(s, s[lo..hi], lo, space);
    s[lo..hi]
  }

  /** A string of white space strips to nothing. */
  lemma StripBlank(s: string, space: char -> bool)
    requires forall i :: 0 <= i < |s| ==> space(s[i])
    ensures Strip(s, space) == ""
  {
  }

  /** A run of white space keeps nothing under a filter that rejects white space. */
  lemma BlankKeepsNothing(s: string, space: char -> bool, keep: char -> bool, i: nat, j: nat)
    requires forall c :: space(c) ==> !keep(c)
    requires i <= j <= |s|
    requires forall k :: i <= k < j ==> space(s[k])
    ensures Keep(s[i..j], keep) == []
  {
    var run := s[i..j];
    forall k | 0 <= k < |run|
      ensures !keep(run[k])
    {
      assert run[k] == s[i + k];
    }
    KeepNoneKept(run, keep);
  }

  /** Filtering three consecutive pieces filters each of them. */
  lemma KeepPieces(a: string, b: string, c: string, keep: char -> bool)
    ensures Keep(a + b + c, keep) == Keep(a, keep) + Keep(b, keep) + Keep(c, keep)
  {
    KeepAppend(a + b, c, keep);
    KeepAppend(a, b, keep);
  }

  /** Stripping only removes white space, so it never changes the digits a price filter keeps. */
  lemma KeepStrip(s: string, space: char -> bool, keep: char -> bool)
    requires forall c :: space(c) ==> !keep(c)
    ensures Keep(Strip(s, space), keep) == Keep(s, keep)
  {
    var lo := SpaceEnd(s, space, 0);
    var hi := SpaceStart(s, space, lo, |s|);
    assert s == s[0..lo] + s[lo..hi] + s[hi..|s|];
    KeepPieces(s[0..lo], s[lo..hi], s[hi..|s|], keep);
    BlankKeepsNothing(s, space, keep, 0, lo);
    BlankKeepsNothing(s, space, keep, hi, |s|);
  }

  /** Python's `sep.join(parts)`. */
  function Join(parts: seq<string>, sep: string): string {
    if parts == [] then ""
    else if |parts| == 1 then parts[0]
    else parts[0] + sep + Join(parts[1..], sep)
  }

  // ---------------------------------------------------------------------
  // Case, prefixes and substrings
  // ---------------------------------------------------------------------

  function LowerChar(c: char): char {
    if IsAsciiUpper(c) then (c as int + 32) as char else c
  }

  /** `str.lower()` on the ASCII letters. */
  function Lower(s: string): (r: string)
    ensures |r| == |s|
    ensures forall i :: 0 <= i < |s| ==> r[i] == LowerChar(s[i])
  {
    seq(|s|, i requires 0 <= i < |s| => LowerChar(s[i]))
  }

  /** Lower-casing is idempotent. */
  lemma LowerIdempotent(s: string)
    ensures Lower(Lower(s)) == Lower(s)
  {
  }

  /** `needle` occurs in `hay` starting at position `i`. */
  predicate OccursAt(hay: string, needle: string, i: int) {
    0 <= i && i + |needle| <= |hay| && hay[i..i + |needle|] == needle
  }

  /** `needle in hay` on Python strings (the empty needle occurs everywhere). */
  predicate Contains(hay: string, needle: string) {
    exists i :: 0 <= i <= |hay| - |needle| && OccursAt(hay, needle, i)
  }

  /** A lower-cased text never contains a phrase with an ASCII capital letter. */
  lemma {:induction false} LowerMissesUppercase(hay: string, needle: string, k: nat)
    requires k < |needle| && IsAsciiUpper(needle[k])
    ensures !Contains(Lower(hay), needle)
  {
    var h := Lower(hay);
    forall i | 0 <= i <= |h| - |needle|
      ensures !OccursAt(h, needle, i)
    {
      assert h[i..i + |needle|][k] == LowerChar(hay[i + k]);
    }
  }

  /** `s.startswith(prefix)`. */
  predicate StartsWith(s: string, prefix: string) {
    |prefix| <= |s| && s[..|prefix|] == prefix
  }

  // ---------------------------------------------------------------------
  // Ordering
  // ---------------------------------------------------------------------

  /** Python's `a <= b` on strings: lexicographic by code point. */
  predicate StrLe(a: string, b: string) {
    if a == [] then true
    else if b == [] then false
    else if a[0] != b[0] then a[0] < b[0]
    else StrLe(a[1..], b[1..])
  }

  lemma {:induction false} StrLeTotal(a: string, b: string)
    ensures StrLe(a, b) || StrLe(b, a)
  {
    if a != [] && b != [] && a[0] == b[0] {
      StrLeTotal(a[1..], b[1..]);
    }
  }

  lemma {:induction false} StrLeTransitive(a: string, b: string, c: string)
    requires StrLe(a, b) && StrLe(b, c)
    ensures StrLe(a, c)
  {
    if a != [] && b != [] && c != [] && a[0] == b[0] && b[0] == c[0] {
      StrLeTransitive(a[1..], b[1..], c[1..]);
    }
  }
}

=== FILE: wrappers.dfy ===
/** Optional values: Python's `None` and the values of JavaScript's `null`. */
module Wrappers {

  datatype Option<+T> = None | Some(value: T) {

    /** The value, or `default` when there is none (Python's `x or default` on strings). */
    function GetOr(default: T): T {
      match this
      case Some(v) => v
      case None => default
    }
  }
}
